=== FILE: README.md ===
# Equipment comparison: selection, request and comparison table

A model of the car catalogue's comparison feature, from the page where
the user picks equipments to the table the PDF is drawn from.

- **Front end, comparison page** (`CompareGrid`, `FileNames`):
  - the grid of candidates hides the primary equipment named in the URL;
  - the user selects up to three candidates by key (`keyOf`);
  - `buildFinalIds` turns the selection into the id list to post: the primary first, no id twice, at most four with a primary and three without;
  - `handleCompare` posts the list and reports the outcome;
  - the PDF title and its file name come from `buildTitleFromPrimary` and `sanitizeForFilename`.
- **Back end, PDF view helpers** (`PdfUtils`):
  - `_validate_ids` checks the posted ids;
  - the fetched equipments are put back in requested order;
  - `_aggregate_options_props` builds the ordered option → property-title grid;
  - `_build_header_row`, `_equipment_has_prop`, `_build_table_rows` and the `row_index` loop of `_build_table` lay out the table.
- **Back end, serializers** (`Serializers`):
  - `get_options` groups an equipment's properties by parent option and sorts the groups stably by `(name or "", id or 0)`;
  - `get_equipments` collects a car model's equipments across its modifications.
- **End to end** (`Pipeline`): every list the page posts passes the back end's validation unchanged, and the primary equipment becomes the first column.

Supporting modules:
- `Wrappers`: `Option` and `Result`.
- `Sequences`: order-preserving de-duplication (`FirstOccurrences`), `Filter`, `Flatten`, `Take`.
- `Decimal`:
  - `String(n)` / `str(n)` for integers;
  - Python's `int(text)` on base-10 text;
  - Python's `f"{n:,}"`.

Code that changes state step by step is written as methods with loops, each proved against a specification function:
- `buildFinalIds`, `_aggregate_options_props`, `_build_header_row`, `_build_table_rows`, the `row_index` loop, `get_options` and `get_equipments`.
- The page's state (`selectedKeys`, `notice`, `sending`, `resultMessage`) is the class `CompareGrid.CompareView`.

Two behaviours of the code worth knowing:
- **File names.** `sanitizeForFilename` replaces each run of `\ / : * ? " < > |` with one `_` (`compareGrid.tsx:21`), so `My Car:  2024*` becomes `My Car_ 2024_`.
- **Unnamed options.** The table is modelled as written, including the unnamed-option behaviour under "## Findings".

## Model

| member | source | states |
|---|---|---|
| CompareGrid.KeyOfIds | frontend/src/pages/Equipments/compareGrid.tsx:10 | Two items with ids get the same key exactly when their ids are equal. |
| CompareGrid.KeyOfIdVersusName | frontend/src/pages/Equipments/compareGrid.tsx:10 | The key of an item with an id never equals the `name-price` key of an item without one. |
| CompareGrid.BuildTitleFromPrimary | frontend/src/pages/Equipments/compareGrid.tsx:12-18 | The title is `Comparison` without a primary. Otherwise it is the primary's name, followed by `, brand` exactly when the brand is non-empty. |
| CompareGrid.PrimaryIsFirstMatch | frontend/src/pages/Equipments/compareGrid.tsx:13 | A primary exists exactly when some item carries the URL id. It is the first such item. |
| CompareGrid.ItemsToShow | frontend/src/pages/Equipments/compareGrid.tsx:135-138 | The grid holds exactly the items whose id is not the primary id. |
| CompareGrid.SelectedItems | frontend/src/pages/Equipments/compareGrid.tsx:140-143 | The selected items are exactly the grid items whose key is selected. |
| CompareGrid.SelectedItemsIgnoreClickOrder | frontend/src/pages/Equipments/compareGrid.tsx:140-143 | Two selections with the same keys give the same items, in grid order, whatever the click order. |
| CompareGrid.ToggleRemoves | frontend/src/pages/Equipments/compareGrid.tsx:148-151 | Toggling a held key removes it, keeps the other keys in order and clears the notice. |
| CompareGrid.ToggleKeepsSelection | frontend/src/pages/Equipments/compareGrid.tsx:145-159 | Toggling keeps the selection duplicate-free with at most three keys. The key ends up held exactly when it was absent and there was room; every other key is unchanged. The limit notice is set exactly when an absent key meets a full selection. |
| CompareGrid.ToggleTwice | frontend/src/pages/Equipments/compareGrid.tsx:148-159 | Adding an absent key and toggling it again restores the selection. |
| CompareGrid.ClicksKeepSelection | frontend/src/pages/Equipments/compareGrid.tsx:145-159 | From the empty selection, any series of clicks leaves a duplicate-free selection of at most three keys. |
| CompareGrid.CompareView.constructor | frontend/src/pages/Equipments/compareGrid.tsx:129-132 | The page starts with no selection, no notice, no message and not sending. |
| CompareGrid.CompareView.ToggleSelect | frontend/src/pages/Equipments/compareGrid.tsx:145-162 | The new selection and notice are those of one toggle. The selection stays valid, and the other state is untouched. |
| CompareGrid.CompareView.NoticeTimerFires | frontend/src/pages/Equipments/compareGrid.tsx:155 | The timer clears the notice and nothing else. |
| CompareGrid.BuildFinalIds | frontend/src/pages/Equipments/compareGrid.tsx:179-192 | The loops compute `FinalIds`: the first item without an id fails, or the capped, de-duplicated stream goes out (properties below). |
| CompareGrid.PrimaryThenUnique | frontend/src/pages/Equipments/compareGrid.tsx:185-191 | The second loop yields the first `cap` distinct ids of the primary followed by the selected ids. |
| CompareGrid.FinalIdsFailure | frontend/src/pages/Equipments/compareGrid.tsx:180-184 | It fails exactly when a selected item lacks an id. The message names the first such item in grid order. |
| CompareGrid.FinalIdsSuccess | frontend/src/pages/Equipments/compareGrid.tsx:185-191 | On success: every selected item has an id, the primary id comes first, no id appears twice, and the length is at most 4 with a primary and 3 without. |
| CompareGrid.FinalIdsMembers | frontend/src/pages/Equipments/compareGrid.tsx:185-191 | Only the primary id and ids of selected items are sent. |
| CompareGrid.FinalIdsOrder | frontend/src/pages/Equipments/compareGrid.tsx:185-191 | Sent ids keep the order in which they are first seen: the primary, then the selection in grid order. |
| CompareGrid.FinalIdsComplete | frontend/src/pages/Equipments/compareGrid.tsx:188 | Every selected id is sent unless the list is full. |
| CompareGrid.FinalIdsEmpty | frontend/src/pages/Equipments/compareGrid.tsx:179-192 | The list is empty exactly when there is neither a primary nor a selection. |
| CompareGrid.CompareOutcomeCases | frontend/src/pages/Equipments/compareGrid.tsx:194-227 | No request goes out on an error or an empty list, and the error is the message. A request carries the built ids and the sanitized `title.pdf`. The selection is cleared only after a successful request and kept otherwise. |
| CompareGrid.CompareView.HandleCompare | frontend/src/pages/Equipments/compareGrid.tsx:194-227 | The request, the result message and the new selection are those of `CompareOutcome`. The notice is cleared only on success. The page stays valid and is not left sending. |
| FileNames.RunLengthMeans | frontend/src/pages/Equipments/compareGrid.tsx:21 | A matched run (`+`) is maximal: every character in it matches, and the next one does not. |
| FileNames.ReplaceRunsShape | frontend/src/pages/Equipments/compareGrid.tsx:21 | After a replacement, each character is the replacement or an original non-matching one. A replacement is never followed by a matching character. |
| FileNames.ReplaceRunsSplit | frontend/src/pages/Equipments/compareGrid.tsx:21 | A maximal run between non-matching neighbours becomes a single replacement character. |
| FileNames.ReplaceRunsIdentity | frontend/src/pages/Equipments/compareGrid.tsx:21 | Text whose runs are already single replacement characters is unchanged. |
| FileNames.Trim | frontend/src/pages/Equipments/compareGrid.tsx:21 | The trimmed text neither starts nor ends with white space. |
| FileNames.TrimSlice | frontend/src/pages/Equipments/compareGrid.tsx:21 | Trimming keeps one slice of the text unchanged, and everything cut before and after it is white space. |
| FileNames.SanitizeShape | frontend/src/pages/Equipments/compareGrid.tsx:20-21 | The file name has none of `\ / : * ? " < > \|`, no white space at either end, and every inner white space is a single plain space. |
| FileNames.SanitizeIdempotent | frontend/src/pages/Equipments/compareGrid.tsx:20-21 | Sanitizing twice equals sanitizing once. |
| Decimal.ParseIntToString | backend/main/pdfutils.py:33 | Python's `int` reads back the decimal text of every integer (without the digit limit of Python's `int`/`str`, see "## Left out"). |
| Decimal.SeparatorIsNotSpace | backend/main/pdfutils.py:33 | `int()` skips only space, tab, line feed, vertical tab, form feed and carriage return: a leading `\x1c` is refused, surrounding blanks are not. |
| Decimal.IntToStringInjective | frontend/src/pages/Equipments/compareGrid.tsx:10 | Distinct integers have distinct decimal text, so distinct ids give distinct keys. |
| Decimal.ThousandsDigits | backend/main/pdfutils.py:117 | `f"{n:,}"` with its commas removed is `str(n)`. |
| Decimal.ThousandsCommas | backend/main/pdfutils.py:117 | In `f"{n:,}"` a comma stands exactly at every fourth place from the right. |
| PdfUtils.ConvertIds | backend/main/pdfutils.py:33 | The comprehension succeeds exactly when every element converts. The result is then the elements' values, in order. |
| PdfUtils.ValidateIdsOutcome | backend/main/pdfutils.py:26-38 | Each of the four 400 errors occurs exactly under its own condition, in check order. Success holds exactly for a non-empty list whose elements all convert, and returns them converted, same length and order. |
| PdfUtils.ValidateIntegerList | backend/main/pdfutils.py:26-38 | A non-empty list of integers is accepted unchanged. |
| PdfUtils.OrderedFetch | backend/main/pdfutils.py:51 | The fetch is never longer than the request. |
| PdfUtils.OrderedFetchPositions | backend/main/pdfutils.py:50-51 | The fetch follows the requested order: one entry per requested id present in the map, ids that are missing dropped, and repeated ids repeated. |
| PdfUtils.OrderedFetchAllFound | backend/main/pdfutils.py:50-51 | When every id exists, the fetch is the requested list mapped through the dictionary. |
| PdfUtils.AggregateOptionsProps | backend/main/pdfutils.py:59-73 | The nested loops build exactly `OptionsPropsOf(data)`. |
| PdfUtils.AddOption | backend/main/pdfutils.py:65-72 | Handling one option keeps the aggregation invariant over the options seen so far. |
| PdfUtils.AddTitles | backend/main/pdfutils.py:69-72 | Adding one option's titles keeps the aggregation invariant. |
| PdfUtils.OptionsPropsNames | backend/main/pdfutils.py:64-68 | The option keys appear once each, in first-seen order. A name is a key exactly when some option is filed under it: a missing or empty name as `''`, and options without properties included. |
| PdfUtils.OptionsPropsTitles | backend/main/pdfutils.py:69-72 | A name's titles appear once each, in first-seen order. A title is listed exactly when it is non-empty and some property of an option filed under the name carries it. |
| PdfUtils.BuildHeaderRow | backend/main/pdfutils.py:110-120 | The header has `1 + n` cells. The first is empty and cell `e + 1` describes equipment `e`. |
| PdfUtils.HeaderTextPrice | backend/main/pdfutils.py:116-118 | A header cell ends with the comma-grouped price, which reads as `str(price)` without its commas. A missing price shows as `0`. |
| PdfUtils.EquipmentHasPropMeans | backend/main/pdfutils.py:123-129 | The search succeeds exactly when an option whose name is `opt_name` itself has a property titled `prop_title`. |
| PdfUtils.BuildTableRows | backend/main/pdfutils.py:132-143 | The loops build exactly `TableRows`: per option its row, then one row per title. |
| PdfUtils.PropertyRow | backend/main/pdfutils.py:137-141 | A property row is its title followed by one mark per equipment. |
| PdfUtils.TableRowsShape | backend/main/pdfutils.py:132-143 | The table has, summed over options, `1 + len(props)` rows. Every row has `1 + len(equipments)` cells. |
| PdfUtils.TableRowsAt | backend/main/pdfutils.py:134-142 | Option `i`'s row sits right after the rows of the options before it. Its property rows follow in title order. |
| PdfUtils.PropertyCell | backend/main/pdfutils.py:140 | A property cell is `✓` exactly when `_equipment_has_prop` holds for that equipment. |
| PdfUtils.SpanRows | backend/main/pdfutils.py:178-184 | `row_index` starts at 1 and, before option `i`, is 1 plus the rows of the options before it. |
| PdfUtils.SpansOnOptionRows | backend/main/pdfutils.py:178-184 | Every span lands on its option's row of the full table, header row 0 included. |
| PdfUtils.RowIndexCases | backend/main/pdfutils.py:179-184 | Every body row lies in the block of some option: its row or one of its property rows. |
| PdfUtils.UnnamedOptionNeverMarked | backend/main/pdfutils.py:123-129 | As written, a property of an option with a missing name is listed under `''`, yet no equipment gets a `✓` for it, provided no option is literally named `''`. |
| PdfUtils.FiledPropertyRowsMarked | backend/main/pdfutils.py:64-72 | With the name normalised as at line 66, every property row has a `✓` for some equipment. Away from `''` this agrees with line 125. |
| Serializers.GetOptions | backend/main/serializers.py:78-105 | The loop and the sort compute `Options(props)`: the grouped entries, stably sorted. |
| Serializers.GroupedOptionsEntries | backend/main/serializers.py:83-101 | There is one entry per distinct key met, none twice, the `None` bucket included. Each entry carries its key's id and name and its properties in query order. |
| Serializers.PropertyLandsOnce | backend/main/serializers.py:84-91 | Each property lands in the entry of its parent option's id and name, and no two entries share an id and name. With distinct property ids (the table's primary key) it lands in no other entry. Without a parent it lands in the `Other` entry with id `None`. |
| Serializers.PropKeyByIdAndName | backend/main/serializers.py:86-89 | Two keys are equal exactly when their ids and names are. |
| Serializers.StableSortSorted | backend/main/serializers.py:104 | The sort orders entries ascending by `(name or "", id or 0)` under Python's ordering. |
| Serializers.StableSortStable | backend/main/serializers.py:104 | Entries with equal sort keys keep their relative order. |
| Serializers.OptionsSortedStable | backend/main/serializers.py:103-105 | The result is sorted and stable, and it is a permutation of the grouped entries. |
| Serializers.GetEquipments | backend/main/serializers.py:30-35 | The nested loops return every modification's equipments concatenated in modification order. |
| Serializers.EquipmentsOfModification | backend/main/serializers.py:32-34 | Modification `m`'s equipments stand together, in their own order, after those of every earlier modification. |
| Pipeline.SentIdsAccepted | frontend/src/pages/Equipments/compareGrid.tsx:213 | Every id list the page posts passes `_validate_ids` unchanged: non-empty, at most four, and no id twice. |
| Pipeline.PrimaryEquipmentFirst | backend/main/pdfutils.py:50-51 | When the primary equipment exists, it is the first equipment fetched, and so the first column. |

## Left out

- `openPdfCrossPlatform` and the blob download are left out: browser effects such as user agents, blob URLs, popups and `FileReader`. The request's file name and title are still modelled.
- Parsing the URL parameter with JavaScript `Number`: the primary id is an `Option<int>` input.
- The HTTP call is a boolean input of `HandleCompare` (success or failure).
  - Any exception, whether network, status or opening, counts as failure.
  - `console.error` is left out.
- The `sending` flag's intermediate `true` is not observable in a sequential model. `HandleCompare` ends with it `false`, as the `finally` block does.
- React scheduling is left out. This covers state-update batching, `useMemo`/`useCallback` caching and stale closures: every call sees the current state.
- The two-second notice timer is the separate method `NoticeTimerFires`; no clock is modelled.
- CompareGrid.KeyOfIdVersusName: requires a non-negative id. A negative id's text also begins with `-` and could, in principle, equal some `name-price`.
- `formatPrice`, image fields and the grid's display mapping (`gridItems`): display only.
- `CompareItem.name` is a required string, so `primary?.name ?? primary?.car_name` never reaches `car_name`. The model uses the name.
- reportlab is left out: cells are plain strings, not `Paragraph`s, and styles, `TableStyle` commands, fonts and colours are dropped.
  - Only the span positions of the `row_index` loop are modelled.
  - `_build_styles` and `_render_comparison_pdf` are left out.
- `_compute_col_widths`: floating-point layout arithmetic.
- The Django ORM is left out:
  - query sets are input sequences in query order;
  - `eq_by_id` is an input map from id to equipment;
  - `_serialize_equipments` and the model field mappings are not part of this model.
- The view is not part of this model: the 404 for an empty fetch, the HTTP response and the PDF bytes.
- JSON request bodies are parsed values. Form-encoded `QueryDict` payloads are not modelled.
- PdfUtils.ValidateIds: models object bodies with finite numbers only. JSON floats are exact reals, truncated toward zero.
  - An overflowing number such as `1e400` parses as `inf`, and `int(inf)` raises `OverflowError`. Line 34 does not catch that, so the request ends in a server error; the model converts every float.
  - A body that is not an object (e.g. `[1,2]`) makes `payload.get` raise `AttributeError` at line 27. The model's payload is always a map.
- PdfUtils.PyInt: Python's `int` also strips non-ASCII white space and accepts non-ASCII decimal digits. Only ASCII white space and digits are modelled.
- PdfUtils.ValidateIdsOutcome: its split between "All ids must be integers." and success is exact for ASCII text only. A string id padded with non-ASCII white space or written in non-ASCII digits, which Python's `int` accepts, is refused by the model. A string id of more than 4,300 digits, which Python's `int` refuses with `ValueError` (its default digit limit), is accepted by the model, so Python replies 400 "All ids must be integers." where the model gives success.
- PdfUtils.ConvertIds: a string element of more than 4,300 digits converts in the model, but Python's `int` raises `ValueError` on it. The limit is Python's default, configurable per interpreter, and is not modelled; `Decimal.ParsePyInt` and `Decimal.ParseIntToString` likewise ignore it (Python's `str` refuses such integers too).
- CompareGrid.KeyOf: `String(n)` is modelled as exact decimal text. JavaScript numbers agree with it only for integers below 2^53, which are exact, and below 1e21, after which `String` switches to exponent notation.
- JavaScript strings are UTF-16. Here they are sequences of code points, which affects nothing the model states.
- Python's `list.sort` (Timsort) is modelled by a stable insertion sort. A stable sort's result is unique, so the outcome is the same.

## Findings

| source | as written | input that shows it | evidently intended | confidence | as-written member | corrected member |
|---|---|---|---|---|---|---|
| backend/main/pdfutils.py:125 | An option whose name is `None` is filed under `''` (line 66), but `_equipment_has_prop` compares `opt.get('name') == opt_name`, i.e. `None == ''` (line 125) | one equipment with one option `{name: None, properties: [{title: "ABS"}]}`, and no option named `''`: the table lists `ABS` under `''` but its cell has no `✓` | compare the normalised name `opt.get('name') or ''`, so every listed property is marked where it occurs | high (proved on the model; not executed) | PdfUtils.UnnamedOptionNeverMarked | PdfUtils.FiledPropertyRowsMarked |

=== FILE: compare_grid.dfy ===
/** The comparison page of the front end
    (frontend/src/pages/Equipments/compareGrid.tsx): the user picks up to
    three candidates from a grid, optionally next to a primary equipment
    named in the URL, and asks the back end for a comparison PDF. */
module CompareGrid {
  import opened Wrappers
  import opened Sequences
  import opened Decimal
  import opened FileNames

  /** A candidate of the comparison list (`CompareItem`). Prices are whole
      numbers; the image is display-only and left out. */
  datatype CompareItem = CompareItem(
    id: Option<int>,
    name: string,
    price: int,
    brandName: Option<string>,
    carName: Option<string>)

  /** `keyOf`: the decimal id when there is one, else `name-price`. */
  function KeyOf(it: CompareItem): string {
    if it.id.Some? then IntToString(it.id.value) else it.name + "-" + IntToString(it.price)
  }

  /** Two items with ids share a key exactly when they share the id. */
  lemma KeyOfIds(a: CompareItem, b: CompareItem)
    requires a.id.Some? && b.id.Some?
    ensures KeyOf(a) == KeyOf(b) <==> a.id == b.id
  {
    if KeyOf(a) == KeyOf(b) {
      IntToStringInjective(a.id.value, b.id.value);
    }
  }

  /** The key of an item with a non-negative id is all digits, so it never
      equals the key of an item without an id, which holds a `-`. */
  lemma KeyOfIdVersusName(a: CompareItem, b: CompareItem)
    requires a.id.Some? && a.id.value >= 0 && b.id.None?
    ensures KeyOf(a) != KeyOf(b)
  {
    var kb := KeyOf(b);
    IntToStringShape(a.id.value);
    assert kb[|b.name|] == '-';
    assert !IsDigit(kb[|b.name|]);
  }

  // ---------------------------------------------------------------------
  // The primary item and the title of the comparison.

  /** `items.find((it) => it.id === id)`, as the position of the first match. */
  function FindById(items: seq<CompareItem>, id: int): (r: Option<nat>)
    ensures r.Some? ==> r.value < |items| && items[r.value].id == Some(id) &&
                        forall j :: 0 <= j < r.value ==> items[j].id != Some(id)
    ensures r.None? ==> forall j :: 0 <= j < |items| ==> items[j].id != Some(id)
  {
    if items == [] then None
    else if items[0].id == Some(id) then Some(0)
    else
      match FindById(items[1..], id)
      case None => None
      case Some(j) => Some(j + 1)
  }

  /** The primary item: the first item whose id is the one in the URL. */
  function Primary(items: seq<CompareItem>, urlEquipId: Option<int>): Option<CompareItem> {
    if urlEquipId.None? then None
    else
      match FindById(items, urlEquipId.value)
      case None => None
      case Some(i) => Some(items[i])
  }

  const DefaultTitle := "Comparison"

  /** `buildTitleFromPrimary(...).title`: the primary's name, followed by
      `, brand` when the primary has a non-empty brand; `Comparison` when
      there is no primary. */
  function BuildTitleFromPrimary(items: seq<CompareItem>, urlEquipId: Option<int>): (title: string)
    ensures Primary(items, urlEquipId).None? ==> title == DefaultTitle
    ensures Primary(items, urlEquipId).Some? ==>
              var p := Primary(items, urlEquipId).value;
              var brand := p.brandName.GetOr("");
              && IsPrefix(p.name, title)
              && (brand == "" ==> title == p.name)
              && (brand != "" ==> title[|p.name|..] == ", " + brand)
  {
    match Primary(items, urlEquipId)
    case None => DefaultTitle
    case Some(p) =>
      var brand := p.brandName.GetOr("");
      if brand != "" then p.name + ", " + brand else p.name
  }

  /** The primary, when found, is an item carrying the URL id, and no
      earlier item carries it. */
  lemma PrimaryIsFirstMatch(items: seq<CompareItem>, urlEquipId: Option<int>)
    ensures Primary(items, urlEquipId).Some? <==>
              urlEquipId.Some? && exists i :: 0 <= i < |items| && items[i].id == urlEquipId
    ensures Primary(items, urlEquipId).Some? ==>
              exists i :: 0 <= i < |items| && items[i] == Primary(items, urlEquipId).value &&
                          items[i].id == urlEquipId &&
                          forall j :: 0 <= j < i ==> items[j].id != urlEquipId
  {
    if urlEquipId.Some? && FindById(items, urlEquipId.value).Some? {
      var i := FindById(items, urlEquipId.value).value;
      assert items[i].id == urlEquipId;
    }
  }

  // ---------------------------------------------------------------------
  // The grid and the selection shown in it.

  /** `itemsToShow`: the grid leaves out every item carrying the primary id. */
  function ItemsToShow(items: seq<CompareItem>, urlEquipId: Option<int>): (r: seq<CompareItem>)
    ensures forall i :: 0 <= i < |r| ==> r[i] in items
    ensures urlEquipId.Some? ==> forall i :: 0 <= i < |r| ==> r[i].id != urlEquipId
    ensures forall i :: 0 <= i < |items| && (urlEquipId.None? || items[i].id != urlEquipId) ==>
              items[i] in r
  {
    if urlEquipId.None? then items
    else Filter(items, (it: CompareItem) => it.id != urlEquipId)
  }

  /** `selectedItems`: the grid items whose key is selected, in grid order. */
  function SelectedItems(grid: seq<CompareItem>, keys: seq<string>): (r: seq<CompareItem>)
    ensures forall i :: 0 <= i < |r| ==> r[i] in grid && KeyOf(r[i]) in keys
    ensures forall i :: 0 <= i < |grid| && KeyOf(grid[i]) in keys ==> grid[i] in r
  {
    Filter(grid, (it: CompareItem) => KeyOf(it) in keys)
  }

  /** Only which keys are selected matters, not the order they were
      clicked in: the ids go out in grid order. */
  lemma SelectedItemsIgnoreClickOrder(grid: seq<CompareItem>, keys1: seq<string>, keys2: seq<string>)
    requires forall k :: k in keys1 <==> k in keys2
    ensures SelectedItems(grid, keys1) == SelectedItems(grid, keys2)
  {
    FilterSame(grid, (it: CompareItem) => KeyOf(it) in keys1, (it: CompareItem) => KeyOf(it) in keys2);
  }

  // ---------------------------------------------------------------------
  // Toggling a candidate.

  const MaxSelected := 3
  const LimitNotice := "Siz 3 tagacha bo'lgan mashinalarni tanlay olasiz."

  /** The selected keys after `toggleSelect` on an item with key `key`. */
  function Toggled(keys: seq<string>, key: string): seq<string> {
    if key in keys then Filter(keys, (k: string) => k != key)
    else if |keys| >= MaxSelected then keys
    else keys + [key]
  }

  /** The notice after `toggleSelect`: the limit notice when a fourth key
      was refused, none otherwise. */
  function ToggleNotice(keys: seq<string>, key: string): Option<string> {
    if key !in keys && |keys| >= MaxSelected then Some(LimitNotice) else None
  }

  /** The selection invariant: no key twice, at most three keys. */
  predicate ValidSelection(keys: seq<string>) {
    NoDuplicates(keys) && |keys| <= MaxSelected
  }

  /** Toggling a held key removes it and keeps the others in their order. */
  lemma {:induction false} ToggleRemoves(keys: seq<string>, i: nat)
    requires NoDuplicates(keys) && i < |keys|
    ensures Toggled(keys, keys[i]) == keys[..i] + keys[i + 1..]
    ensures ToggleNotice(keys, keys[i]) == None
  {
    var key := keys[i];
    var p := (k: string) => k != key;
    var before, after := keys[..i], keys[i + 1..];
    assert keys == before + [key] + after;
    forall j | 0 <= j < |before|
      ensures p(before[j])
    {
      assert before[j] == keys[j];
    }
    forall j | 0 <= j < |after|
      ensures p(after[j])
    {
      assert after[j] == keys[i + 1 + j];
    }
    FilterConcat(before + [key], after, p);
    FilterConcat(before, [key], p);
    FilterAll(before, p);
    FilterAll(after, p);
    FilterNone([key], p);
  }

  /** Toggling keeps the selection valid, and it toggles membership of
      exactly the one key: the key is held afterwards precisely when it
      was absent and there was room, and every other key stays as it was. */
  lemma {:induction false} ToggleKeepsSelection(keys: seq<string>, key: string)
    requires ValidSelection(keys)
    ensures ValidSelection(Toggled(keys, key))
    ensures key in Toggled(keys, key) <==> key !in keys && |keys| < MaxSelected
    ensures forall k :: k != key ==> (k in Toggled(keys, key) <==> k in keys)
    ensures ToggleNotice(keys, key).Some? <==> key !in keys && |keys| == MaxSelected
  {
    var r := Toggled(keys, key);
    if key in keys {
      var i := IndexOf(keys, key);
      ToggleRemoves(keys, i);
      assert r == keys[..i] + keys[i + 1..];
      forall k | k != key
        ensures k in r <==> k in keys
      {
        if k in keys {
          var j := IndexOf(keys, k);
          if j < i { assert r[j] == k; } else { assert r[j - 1] == k; }
        }
      }
    }
  }

  /** Toggling an absent key twice, with room for it, restores the selection. */
  lemma {:induction false} ToggleTwice(keys: seq<string>, key: string)
    requires ValidSelection(keys) && key !in keys && |keys| < MaxSelected
    ensures Toggled(Toggled(keys, key), key) == keys
  {
    var added := keys + [key];
    assert NoDuplicates(added);
    ToggleRemoves(added, |keys|);
    assert added[..|keys|] == keys;
  }

  /** The selection after a series of clicks, starting from `keys`. */
  function ToggleAll(keys: seq<string>, clicks: seq<string>): seq<string> {
    if clicks == [] then keys else Toggled(ToggleAll(keys, clicks[..|clicks| - 1]), clicks[|clicks| - 1])
  }

  /** Starting from no selection, any series of clicks leaves at most three
      distinct keys. */
  lemma {:induction false} ClicksKeepSelection(clicks: seq<string>)
    ensures ValidSelection(ToggleAll([], clicks))
  {
    if clicks != [] {
      ClicksKeepSelection(clicks[..|clicks| - 1]);
      ToggleKeepsSelection(ToggleAll([], clicks[..|clicks| - 1]), clicks[|clicks| - 1]);
    }
  }

  // ---------------------------------------------------------------------
  // The id list sent to the back end.

  function NoIdMessage(name: string): string {
    "Selected item \"" + name + "\" has no id and cannot be sent."
  }

  /** The position of the first item without an id. */
  function FirstWithoutId(items: seq<CompareItem>): (r: Option<nat>)
    ensures r.Some? ==> r.value < |items| && items[r.value].id.None? &&
                        forall j :: 0 <= j < r.value ==> items[j].id.Some?
    ensures r.None? ==> forall j :: 0 <= j < |items| ==> items[j].id.Some?
  {
    if items == [] then None
    else if items[0].id.None? then Some(0)
    else
      match FirstWithoutId(items[1..])
      case None => None
      case Some(j) => Some(j + 1)
  }

  lemma FirstWithoutIdAt(items: seq<CompareItem>, i: nat)
    requires i < |items| && items[i].id.None?
    requires forall j :: 0 <= j < i ==> items[j].id.Some?
    ensures FirstWithoutId(items) == Some(i)
  {
  }

  lemma AllHaveIds(items: seq<CompareItem>)
    requires forall j :: 0 <= j < |items| ==> items[j].id.Some?
    ensures FirstWithoutId(items) == None
  {
  }

  /** The ids of items that all have one, in order. */
  function IdsOf(items: seq<CompareItem>): (r: seq<int>)
    requires forall j :: 0 <= j < |items| ==> items[j].id.Some?
    ensures |r| == |items| && forall j :: 0 <= j < |r| ==> r[j] == items[j].id.value
  {
    if items == [] then [] else IdsOf(items[..|items| - 1]) + [items[|items| - 1].id.value]
  }

  function PrimaryIds(urlEquipId: Option<int>): seq<int> {
    if urlEquipId.Some? then [urlEquipId.value] else []
  }

  /** Four ids with a primary, three without. */
  function Cap(urlEquipId: Option<int>): nat {
    if urlEquipId.Some? then 4 else 3
  }

  /** What `buildFinalIds` returns for the selected items: an error naming
      the first item without an id, or the primary id followed by the
      selected ids, each once, cut at the cap. */
  function FinalIds(selected: seq<CompareItem>, urlEquipId: Option<int>): Result<seq<int>, string> {
    match FirstWithoutId(selected)
    case Some(i) => Failure(NoIdMessage(selected[i].name))
    case None => Success(Take(FirstOccurrences(PrimaryIds(urlEquipId) + IdsOf(selected)), Cap(urlEquipId)))
  }

  /** `buildFinalIds`: the ids of the selected items in grid order, or an
      error for the first one without an id; then the list that is sent. */
  method BuildFinalIds(selected: seq<CompareItem>, urlEquipId: Option<int>) returns (r: Result<seq<int>, string>)
    ensures r == FinalIds(selected, urlEquipId)
  {
    var selIds: seq<int> := [];
    var i := 0;
    while i < |selected|
      invariant 0 <= i <= |selected|
      invariant forall j :: 0 <= j < i ==> selected[j].id.Some?
      invariant selIds == IdsOf(selected[..i])
    {
      var it := selected[i];
      if it.id.None? {
        FirstWithoutIdAt(selected, i);
        return Failure(NoIdMessage(it.name));
      }
      IdsOfStep(selected, i);
      selIds := selIds + [it.id.value];
      i := i + 1;
    }
    assert selected[..i] == selected;
    AllHaveIds(selected);
    var final := PrimaryThenUnique(urlEquipId, selIds);
    return Success(final);
  }

  /** The second half of `buildFinalIds`: the primary id, then each id not
      yet in the list, stopping once the list is full. */
  method PrimaryThenUnique(urlEquipId: Option<int>, selIds: seq<int>) returns (final: seq<int>)
    ensures final == Take(FirstOccurrences(PrimaryIds(urlEquipId) + selIds), Cap(urlEquipId))
  {
    ghost var head := PrimaryIds(urlEquipId);
    final := [];
    if urlEquipId.Some? {
      final := final + [urlEquipId.value];
    }
    StreamStart(urlEquipId, selIds);
    var k := 0;
    while k < |selIds|
      invariant 0 <= k <= |selIds|
      invariant final == FirstOccurrences(head + selIds[..k])
      invariant |final| <= Cap(urlEquipId)
    {
      if |final| >= (if urlEquipId.Some? then 4 else 3) {
        break;
      }
      var id := selIds[k];
      StreamStep(head, selIds, k);
      if id !in final {
        final := final + [id];
      }
      k := k + 1;
    }
    StreamEnd(head, selIds, k, Cap(urlEquipId), final);
  }

  lemma IdsOfStep(selected: seq<CompareItem>, i: nat)
    requires i < |selected| && forall j :: 0 <= j <= i ==> selected[j].id.Some?
    ensures IdsOf(selected[..i + 1]) == IdsOf(selected[..i]) + [selected[i].id.value]
  {
    assert selected[..i + 1][..i] == selected[..i];
  }

  lemma StreamStart(urlEquipId: Option<int>, ids: seq<int>)
    ensures FirstOccurrences(PrimaryIds(urlEquipId) + ids[..0]) == PrimaryIds(urlEquipId)
  {
    assert PrimaryIds(urlEquipId) + ids[..0] == PrimaryIds(urlEquipId);
    FirstOccurrencesOfDistinct(PrimaryIds(urlEquipId));
  }

  lemma StreamStep(head: seq<int>, ids: seq<int>, k: nat)
    requires k < |ids|
    ensures FirstOccurrences(head + ids[..k + 1]) ==
            if ids[k] in FirstOccurrences(head + ids[..k]) then FirstOccurrences(head + ids[..k])
            else FirstOccurrences(head + ids[..k]) + [ids[k]]
  {
    assert head + ids[..k + 1] == (head + ids[..k]) + [ids[k]];
    FirstOccurrencesAppend(head + ids[..k], ids[k]);
    MemberOfFirstOccurrences(head + ids[..k], ids[k]);
  }

  /** Stopping at the cap, or at the end of the ids, gives the capped
      first occurrences of the whole stream. */
  lemma StreamEnd(head: seq<int>, ids: seq<int>, k: nat, cap: nat, final: seq<int>)
    requires k <= |ids| && final == FirstOccurrences(head + ids[..k])
    requires |final| <= cap
    requires k == |ids| || |final| >= cap
    ensures final == Take(FirstOccurrences(head + ids), cap)
  {
    var s := head + ids;
    if k == |ids| {
      assert head + ids[..k] == s;
    } else {
      assert s[..|head| + k] == head + ids[..k];
      FirstOccurrencesPrefix(s, |head| + k);
      CappedPrefix(final, FirstOccurrences(s), cap);
    }
  }

  lemma CappedPrefix(final: seq<int>, all: seq<int>, cap: nat)
    requires IsPrefix(final, all) && |final| == cap
    ensures final == Take(all, cap)
  {
  }

  /** The error case: `buildFinalIds` fails exactly when a selected item
      has no id, and the message names the first such item in grid order. */
  lemma FinalIdsFailure(selected: seq<CompareItem>, urlEquipId: Option<int>)
    ensures FinalIds(selected, urlEquipId).Failure? <==>
              exists i :: 0 <= i < |selected| && selected[i].id.None?
    ensures FinalIds(selected, urlEquipId).Failure? ==>
              exists i :: 0 <= i < |selected| && selected[i].id.None? &&
                          (forall j :: 0 <= j < i ==> selected[j].id.Some?) &&
                          FinalIds(selected, urlEquipId).error == NoIdMessage(selected[i].name)
  {
    if FirstWithoutId(selected).Some? {
      var i := FirstWithoutId(selected).value;
      assert selected[i].id.None?;
    }
  }

  /** The success case: the primary id first, no id twice, within the cap. */
  lemma {:induction false} FinalIdsSuccess(selected: seq<CompareItem>, urlEquipId: Option<int>, ids: seq<int>)
    requires FinalIds(selected, urlEquipId) == Success(ids)
    ensures forall j :: 0 <= j < |selected| ==> selected[j].id.Some?
    ensures urlEquipId.Some? ==> |ids| > 0 && ids[0] == urlEquipId.value
    ensures NoDuplicates(ids)
    ensures |ids| <= Cap(urlEquipId)
  {
    var all := FirstOccurrences(PrimaryIds(urlEquipId) + IdsOf(selected));
    TakeNoDuplicates(all, Cap(urlEquipId));
    if urlEquipId.Some? {
      FirstOccurrencesHead(urlEquipId.value, IdsOf(selected));
    }
  }

  /** On success only the primary id and ids of selected items are sent. */
  lemma {:induction false} FinalIdsMembers(selected: seq<CompareItem>, urlEquipId: Option<int>, ids: seq<int>)
    requires FinalIds(selected, urlEquipId) == Success(ids)
    ensures forall i :: 0 <= i < |ids| ==>
              Some(ids[i]) == urlEquipId || exists j :: 0 <= j < |selected| && selected[j].id == Some(ids[i])
  {
    var stream := PrimaryIds(urlEquipId) + IdsOf(selected);
    var all := FirstOccurrences(stream);
    assert ids == Take(all, Cap(urlEquipId));
    forall i | 0 <= i < |ids|
      ensures Some(ids[i]) == urlEquipId || exists j :: 0 <= j < |selected| && selected[j].id == Some(ids[i])
    {
      assert ids[i] == all[i];
      var k :| 0 <= k < |stream| && stream[k] == ids[i];
      if k >= |PrimaryIds(urlEquipId)| {
        assert selected[k - |PrimaryIds(urlEquipId)|].id == Some(ids[i]);
      }
    }
  }

  /** On success the ids keep the order in which they are first seen:
      the primary, then the selected items in grid order. */
  lemma {:induction false} FinalIdsOrder(selected: seq<CompareItem>, urlEquipId: Option<int>, ids: seq<int>)
    requires FinalIds(selected, urlEquipId) == Success(ids)
    ensures var stream := PrimaryIds(urlEquipId) + IdsOf(selected);
            forall i, j :: 0 <= i < j < |ids| ==> IndexOf(stream, ids[i]) < IndexOf(stream, ids[j])
  {
    var stream := PrimaryIds(urlEquipId) + IdsOf(selected);
    var all := FirstOccurrences(stream);
    assert ids == Take(all, Cap(urlEquipId));
    FirstOccurrencesOrder(stream);
    forall i, j | 0 <= i < j < |ids|
      ensures IndexOf(stream, ids[i]) < IndexOf(stream, ids[j])
    {
      assert ids[i] == all[i] && ids[j] == all[j];
    }
  }

  /** Nothing selected is lost silently: every selected id is sent, or the
      list is full. */
  lemma {:induction false} FinalIdsComplete(selected: seq<CompareItem>, urlEquipId: Option<int>, ids: seq<int>)
    requires FinalIds(selected, urlEquipId) == Success(ids)
    ensures |ids| == Cap(urlEquipId) ||
            forall j :: 0 <= j < |selected| ==> selected[j].id.value in ids
  {
    var stream := PrimaryIds(urlEquipId) + IdsOf(selected);
    if |ids| < Cap(urlEquipId) {
      assert ids == FirstOccurrences(stream);
      forall j | 0 <= j < |selected|
        ensures selected[j].id.value in ids
      {
        assert stream[|PrimaryIds(urlEquipId)| + j] == selected[j].id.value;
        MemberOfFirstOccurrences(stream, selected[j].id.value);
      }
    }
  }

  /** `buildFinalIds` gives an empty list exactly when there is neither a
      primary nor a selection. */
  lemma FinalIdsEmpty(selected: seq<CompareItem>, urlEquipId: Option<int>)
    ensures FinalIds(selected, urlEquipId) == Success([]) <==> urlEquipId.None? && selected == []
  {
    if FinalIds(selected, urlEquipId).Success? && selected != [] {
      var stream := PrimaryIds(urlEquipId) + IdsOf(selected);
      MemberOfFirstOccurrences(stream, stream[|stream| - 1]);
    }
  }

  // ---------------------------------------------------------------------
  // The page.

  /** The request `handleCompare` sends and the file name it opens the PDF under. */
  datatype CompareRequest = CompareRequest(ids: seq<int>, title: string, fileName: string)

  /** What `handleCompare` ends with: the request it sent, if any, the
      message it shows, and the selection it leaves. */
  datatype Outcome = Outcome(request: Option<CompareRequest>, message: string, keysAfter: seq<string>)

  const NoIdsMessage := "No IDs to send."
  const GeneratedMessage := "PDF generated."
  const FailedMessage := "Failed to generate PDF."

  /** The outcome of `handleCompare` on the page state, given whether the
      request succeeds. */
  function CompareOutcome(items: seq<CompareItem>, urlEquipId: Option<int>, keys: seq<string>, requestOk: bool): Outcome {
    var selected := SelectedItems(ItemsToShow(items, urlEquipId), keys);
    match FinalIds(selected, urlEquipId)
    case Failure(e) => Outcome(None, e, keys)
    case Success(ids) =>
      if ids == [] then Outcome(None, NoIdsMessage, keys)
      else
        var title := BuildTitleFromPrimary(items, urlEquipId);
        var request := CompareRequest(ids, title, Sanitize(title + ".pdf"));
        if requestOk then Outcome(Some(request), GeneratedMessage, [])
        else Outcome(Some(request), FailedMessage, keys)
  }

  /** No request goes out on an error or an empty list; a request carries
      the ids of `buildFinalIds` and a sanitized file name; the selection is
      cleared only after a request that succeeded. */
  lemma CompareOutcomeCases(items: seq<CompareItem>, urlEquipId: Option<int>, keys: seq<string>, requestOk: bool)
    ensures var o := CompareOutcome(items, urlEquipId, keys, requestOk);
            var built := FinalIds(SelectedItems(ItemsToShow(items, urlEquipId), keys), urlEquipId);
            && (o.request.None? <==> built.Failure? || built == Success([]))
            && (built.Failure? ==> o.message == built.error)
            && (o.request.Some? ==> o.request.value.ids == built.value && o.request.value.ids != [])
            && (o.request.Some? ==> o.request.value.fileName == Sanitize(o.request.value.title + ".pdf"))
            && (o.keysAfter == [] || o.keysAfter == keys)
            && (o.keysAfter != keys ==> o.request.Some? && requestOk)
            && (o.request.Some? && requestOk ==> o.keysAfter == [])
  {
  }

  /** The page state (`CompareGrid`). */
  class CompareView {
    const items: seq<CompareItem>
    const urlEquipId: Option<int>
    var selectedKeys: seq<string>
    var notice: Option<string>
    var sending: bool
    var resultMessage: Option<string>

    /** Between events: a valid selection and no request in flight. */
    ghost predicate Valid()
      reads this
    {
      ValidSelection(selectedKeys) && !sending
    }

    constructor(items: seq<CompareItem>, urlEquipId: Option<int>)
      ensures this.items == items && this.urlEquipId == urlEquipId
      ensures selectedKeys == [] && notice == None && !sending && resultMessage == None
      ensures Valid()
    {
      this.items := items;
      this.urlEquipId := urlEquipId;
      selectedKeys := [];
      notice := None;
      sending := false;
      resultMessage := None;
    }

    /** `toggleSelect`. */
    method ToggleSelect(it: CompareItem)
      requires Valid()
      modifies this
      ensures Valid()
      ensures selectedKeys == Toggled(old(selectedKeys), KeyOf(it))
      ensures notice == ToggleNotice(old(selectedKeys), KeyOf(it))
      ensures sending == old(sending) && resultMessage == old(resultMessage)
    {
      ToggleKeepsSelection(selectedKeys, KeyOf(it));
      var key := KeyOf(it);
      if key in selectedKeys {
        selectedKeys := Filter(selectedKeys, (k: string) => k != key);
        notice := None;
        return;
      }
      if |selectedKeys| >= MaxSelected {
        notice := Some(LimitNotice);
        return;
      }
      selectedKeys := selectedKeys + [key];
      notice := None;
    }

    /** The two-second timer started with the limit notice fires. */
    method NoticeTimerFires()
      modifies this
      ensures notice == None
      ensures selectedKeys == old(selectedKeys) && sending == old(sending) && resultMessage == old(resultMessage)
    {
      notice := None;
    }

    /** `handleCompare`; `requestOk` is whether the POST of the ids succeeds. */
    method HandleCompare(requestOk: bool) returns (request: Option<CompareRequest>)
      requires Valid()
      modifies this
      ensures Valid()
      ensures var o := CompareOutcome(items, urlEquipId, old(selectedKeys), requestOk);
              && request == o.request
              && resultMessage == Some(o.message)
              && selectedKeys == o.keysAfter
      ensures notice == if request.Some? && requestOk then None else old(notice)
    {
      resultMessage := None;
      var selected := SelectedItems(ItemsToShow(items, urlEquipId), selectedKeys);
      var built := BuildFinalIds(selected, urlEquipId);
      if built.Failure? {
        resultMessage := Some(built.error);
        return None;
      }
      var finalIds := built.value;
      if finalIds == [] {
        resultMessage := Some(NoIdsMessage);
        return None;
      }
      var title := BuildTitleFromPrimary(items, urlEquipId);
      var safeFileName := Sanitize(title + ".pdf");
      sending := true;
      request := Some(CompareRequest(finalIds, title, safeFileName));
      if requestOk {
        resultMessage := Some(GeneratedMessage);
        selectedKeys := [];
        notice := None;
      } else {
        resultMessage := Some(FailedMessage);
      }
      sending := false;
    }
  }
}

=== FILE: decimal.dfy ===
/** Decimal text of integers, as the system produces and reads it:
    `String(n)` in TypeScript and `str(n)` in Python for an integer `n`,
    Python's `int(text)` for base-10 text, and Python's `f"{n:,}"`, which
    groups the digits in threes with commas. */
module Decimal {
  import opened Wrappers
  import opened Sequences

  predicate IsDigit(c: char) {
    '0' <= c <= '9'
  }

  predicate AllDigits(s: string) {
    forall i :: 0 <= i < |s| ==> IsDigit(s[i])
  }

  function DigitChar(d: nat): (c: char)
    requires d < 10
    ensures IsDigit(c) && c as int - '0' as int == d
  {
    ('0' as int + d) as char
  }

  function DigitValue(c: char): nat
    requires IsDigit(c)
  {
    c as int - '0' as int
  }

  /** The value of a string of decimal digits. */
  function DigitsValue(s: string): nat
    requires AllDigits(s)
  {
    if s == [] then 0 else 10 * DigitsValue(s[..|s| - 1]) + DigitValue(s[|s| - 1])
  }

  /** The shortest decimal spelling of `n`: digits only, no leading zero. */
  function NatToString(n: nat): string {
    if n < 10 then [DigitChar(n)] else NatToString(n / 10) + [DigitChar(n % 10)]
  }

  /** `NatToString(n)` is a non-empty run of digits without a leading
      zero that reads as `n`. */
  lemma {:induction false} NatToStringShape(n: nat)
    ensures var s := NatToString(n);
            && |s| >= 1 && AllDigits(s)
            && (s[0] == '0' ==> n == 0)
            && DigitsValue(s) == n
  {
    if n >= 10 {
      NatToStringShape(n / 10);
      var init := NatToString(n / 10);
      var s := init + [DigitChar(n % 10)];
      assert s[..|s| - 1] == init;
    }
  }

  /** `String(n)` / `str(n)` for an integer: a minus sign for negatives,
      then the shortest decimal spelling of the magnitude. */
  function IntToString(n: int): string {
    if n < 0 then "-" + NatToString(-n) else NatToString(n)
  }

  lemma IntToStringShape(n: int)
    ensures n >= 0 ==> AllDigits(IntToString(n))
    ensures n < 0 ==> |IntToString(n)| >= 2 && IntToString(n)[0] == '-' && AllDigits(IntToString(n)[1..])
  {
    NatToStringShape(if n < 0 then -n else n);
    if n < 0 {
      assert IntToString(n)[1..] == NatToString(-n);
    }
  }

  /** Distinct integers have distinct decimal spellings. */
  lemma IntToStringInjective(a: int, b: int)
    requires IntToString(a) == IntToString(b)
    ensures a == b
  {
    ParseIntToString(a);
    ParseIntToString(b);
  }

  // ---------------------------------------------------------------------
  // Python's int(text) for base-10 text.

  /** The ASCII characters Python's int() skips around the number: space,
      tab, line feed, vertical tab, form feed and carriage return. The
      separators `\x1c`-`\x1f`, which `str.strip()` also removes, are not
      among them. */
  predicate IsPySpace(c: char) {
    c == ' ' || '\t' <= c <= '\r'
  }

  function TrimStart(s: string): string {
    if |s| > 0 && IsPySpace(s[0]) then TrimStart(s[1..]) else s
  }

  function TrimEnd(s: string): string {
    if |s| > 0 && IsPySpace(s[|s| - 1]) then TrimEnd(s[..|s| - 1]) else s
  }

  /** Digits, with single underscores allowed between two digits
      (`1_000` is one thousand; `_1`, `1_` and `1__0` are refused). */
  predicate IsDigitGroups(b: string) {
    && |b| >= 1
    && IsDigit(b[0])
    && IsDigit(b[|b| - 1])
    && (forall i :: 0 <= i < |b| ==> IsDigit(b[i]) || b[i] == '_')
    && (forall i :: 0 <= i < |b| - 1 ==> !DoubleUnderscore(b, i))
  }

  predicate DoubleUnderscore(b: string, i: nat)
    requires i + 1 < |b|
  {
    b[i] == '_' && b[i + 1] == '_'
  }

  predicate NotUnderscore(c: char) {
    c != '_'
  }

  lemma DigitGroupsDigits(b: string)
    requires IsDigitGroups(b)
    ensures AllDigits(Filter(b, NotUnderscore))
  {
    var f := Filter(b, NotUnderscore);
    forall i | 0 <= i < |f|
      ensures IsDigit(f[i])
    {
      assert f[i] in b && NotUnderscore(f[i]);
      var j :| 0 <= j < |b| && b[j] == f[i];
    }
  }

  /** The digits after an optional sign, and whether the sign is a minus. */
  function SplitSign(t: string): (string, bool) {
    if |t| > 0 && (t[0] == '-' || t[0] == '+') then (t[1..], t[0] == '-') else (t, false)
  }

  /** The value of digit groups, underscores skipped. */
  function GroupsValue(body: string): nat
    requires IsDigitGroups(body)
  {
    DigitGroupsDigits(body);
    DigitsValue(Filter(body, NotUnderscore))
  }

  /** Python `int(text)` in base 10: surrounding white space, an optional
      sign, digit groups; `None` where Python raises `ValueError` for the
      text's form. Python's limit on the number of digits (4300 by default)
      is not modelled: longer text reads as its value here. */
  function ParsePyInt(text: string): Option<int> {
    var split := SplitSign(TrimEnd(TrimStart(text)));
    if IsDigitGroups(split.0) then
      var magnitude: int := GroupsValue(split.0);
      Some(if split.1 then -magnitude else magnitude)
    else
      None
  }

  lemma PyTrimUnchanged(s: string)
    requires |s| > 0 && !IsPySpace(s[0]) && !IsPySpace(s[|s| - 1])
    ensures TrimEnd(TrimStart(s)) == s
  {
  }

  lemma {:induction false} TrimSignedDigits(negative: bool, ds: string)
    requires |ds| >= 1 && AllDigits(ds)
    ensures TrimEnd(TrimStart(if negative then "-" + ds else ds)) == (if negative then "-" + ds else ds)
  {
    var text := if negative then "-" + ds else ds;
    assert text[|text| - 1] == ds[|ds| - 1];
    PyTrimUnchanged(text);
  }

  lemma {:induction false} DigitsAreGroups(ds: string)
    requires |ds| >= 1 && AllDigits(ds)
    ensures IsDigitGroups(ds) && GroupsValue(ds) == DigitsValue(ds)
  {
    FilterAll(ds, NotUnderscore);
  }

  lemma {:induction false} ParseTrimmed(text: string, ds: string, negative: bool)
    requires TrimEnd(TrimStart(text)) == text && SplitSign(text) == (ds, negative) && IsDigitGroups(ds)
    ensures var v: int := GroupsValue(ds); ParsePyInt(text) == Some(if negative then -v else v)
  {
    var split := SplitSign(TrimEnd(TrimStart(text)));
    assert split.0 == ds && split.1 == negative;
  }

  /** A file separator before the digits is not white space to `int()`. */
  lemma SeparatorIsNotSpace()
    ensures ParsePyInt("\U{1C}1") == None
    ensures ParsePyInt(" 1\n") == Some(1)
  {
    assert TrimEnd(TrimStart("\U{1C}1")) == "\U{1C}1";
    assert TrimEnd(TrimStart(" 1\n")) == "1";
  }

  /** An unsigned run of digits reads as its value. */
  lemma {:induction false} ParseUnsigned(ds: string)
    requires |ds| >= 1 && AllDigits(ds)
    ensures ParsePyInt(ds) == Some(DigitsValue(ds))
  {
    DigitsAreGroups(ds);
    TrimSignedDigits(false, ds);
    assert SplitSign(ds) == (ds, false);
    ParseTrimmed(ds, ds, false);
  }

  /** A run of digits after a minus sign reads as the negated value. */
  lemma {:induction false} ParseNegative(ds: string)
    requires |ds| >= 1 && AllDigits(ds)
    ensures ParsePyInt("-" + ds) == Some(-(DigitsValue(ds) as int))
  {
    DigitsAreGroups(ds);
    var text := "-" + ds;
    TrimSignedDigits(true, ds);
    assert text[0] == '-' && text[1..] == ds;
    assert SplitSign(text) == (ds, true);
    ParseTrimmed(text, ds, true);
  }

  /** What Python's `str` writes, Python's `int` reads back. */
  lemma ParseIntToString(n: int)
    ensures ParsePyInt(IntToString(n)) == Some(n)
  {
    if n < 0 {
      var ds := NatToString(-n);
      NatToStringShape(-n);
      ParseNegative(ds);
      assert IntToString(n) == "-" + ds;
    } else {
      var ds := NatToString(n);
      NatToStringShape(n);
      ParseUnsigned(ds);
      assert IntToString(n) == ds;
    }
  }

  // ---------------------------------------------------------------------
  // Python's f"{n:,}".

  predicate NotComma(c: char) {
    c != ','
  }

  /** Commas between groups of three digits, counted from the right. */
  function GroupDigits(ds: string): string {
    if |ds| <= 3 then ds else GroupDigits(ds[..|ds| - 3]) + "," + ds[|ds| - 3..]
  }

  /** `f"{n:,}"` for an integer `n`. */
  function GroupThousands(n: int): string {
    if n < 0 then "-" + GroupDigits(NatToString(-n)) else GroupDigits(NatToString(n))
  }

  lemma {:induction false} GroupDigitsLength(ds: string)
    requires |ds| >= 1
    ensures |GroupDigits(ds)| == |ds| + (|ds| - 1) / 3
  {
    if |ds| > 3 {
      GroupDigitsLength(ds[..|ds| - 3]);
    }
  }

  /** Grouping only inserts commas. */
  lemma {:induction false} GroupDigitsFilter(ds: string)
    requires AllDigits(ds)
    ensures Filter(GroupDigits(ds), NotComma) == ds
  {
    if |ds| <= 3 {
      FilterAll(ds, NotComma);
    } else {
      var head, tail := ds[..|ds| - 3], ds[|ds| - 3..];
      DigitSlices(ds, |ds| - 3);
      GroupDigitsFilter(head);
      FilterJoin(GroupDigits(head), tail);
    }
  }

  /** Both sides of a cut through digits are digits, and they join back. */
  lemma DigitSlices(ds: string, k: nat)
    requires AllDigits(ds) && k <= |ds|
    ensures AllDigits(ds[..k]) && AllDigits(ds[k..]) && ds[..k] + ds[k..] == ds
  {
    assert forall i :: 0 <= i < |ds| - k ==> ds[k..][i] == ds[k + i];
  }

  /** Dropping the commas of `g + "," + tail`, where `tail` is digits. */
  lemma FilterJoin(g: string, tail: string)
    requires AllDigits(tail)
    ensures Filter(g + "," + tail, NotComma) == Filter(g, NotComma) + tail
  {
    FilterConcat(g + ",", tail, NotComma);
    FilterConcat(g, ",", NotComma);
    assert Filter(",", NotComma) == [] by {
      assert ","[..0] == [];
    }
    FilterAll(tail, NotComma);
  }

  /** A comma stands exactly at every fourth position counted from the right. */
  lemma {:induction false} GroupDigitsCommas(ds: string)
    requires |ds| >= 1 && AllDigits(ds)
    ensures forall i :: 0 <= i < |GroupDigits(ds)| ==>
              (GroupDigits(ds)[i] == ',' <==> (|GroupDigits(ds)| - i) % 4 == 0)
  {
    GroupDigitsLength(ds);
    if |ds| > 3 {
      var head, tail := ds[..|ds| - 3], ds[|ds| - 3..];
      GroupDigitsCommas(head);
      var g := GroupDigits(head);
      var r := g + "," + tail;
      assert GroupDigits(ds) == r;
      assert |r| == |g| + 4;
      forall i | 0 <= i < |r|
        ensures r[i] == ',' <==> (|r| - i) % 4 == 0
      {
        if i < |g| {
          assert r[i] == g[i];
          assert |r| - i == (|g| - i) + 4;
        } else if i > |g| {
          assert r[i] == tail[i - |g| - 1];
        }
      }
    }
  }

  /** `f"{n:,}"`: a minus sign for negatives, then the grouped digits. */
  lemma GroupThousandsParts(n: int)
    ensures var m := if n < 0 then -n else n;
            GroupThousands(n) == (if n < 0 then "-" else "") + GroupDigits(NatToString(m))
  {
  }

  /** `f"{n:,}"` read without its commas is `str(n)`. */
  lemma ThousandsDigits(n: int)
    ensures Filter(GroupThousands(n), NotComma) == IntToString(n)
  {
    var m := if n < 0 then -n else n;
    var ds := NatToString(m);
    NatToStringShape(m);
    GroupDigitsFilter(ds);
    GroupThousandsParts(n);
    if n < 0 {
      SignedFilter(GroupDigits(ds));
    } else {
      assert "" + GroupDigits(ds) == GroupDigits(ds);
    }
  }

  /** The digits of `f"{n:,}"` are grouped in threes from the right: a
      comma stands exactly at every fourth place counted from the end. */
  lemma ThousandsCommas(n: int)
    ensures var digits := if n < 0 then GroupThousands(n)[1..] else GroupThousands(n);
            forall i :: 0 <= i < |digits| ==> (digits[i] == ',' <==> (|digits| - i) % 4 == 0)
  {
    var m := if n < 0 then -n else n;
    var ds := NatToString(m);
    NatToStringShape(m);
    GroupDigitsCommas(ds);
    GroupThousandsParts(n);
    var g := GroupDigits(ds);
    if n < 0 {
      assert ("-" + g)[1..] == g;
    } else {
      assert "" + g == g;
    }
  }

  lemma SignedFilter(g: string)
    ensures Filter("-" + g, NotComma) == "-" + Filter(g, NotComma)
  {
    FilterConcat("-", g, NotComma);
    assert Filter("-", NotComma) == "-" by {
      assert "-" == [] + ['-'];
    }
  }
}

=== FILE: file_names.dfy ===
/** `sanitizeForFilename` of the comparison page
    (frontend/src/pages/Equipments/compareGrid.tsx:20-21): every maximal run
    of the characters `\ / : * ? " < > |` becomes one `_`, every maximal run
    of white space becomes one space, and white space is trimmed from both
    ends. White space is the set JavaScript's `\s` and `String.prototype.trim`
    share. */
module FileNames {

  /** The characters of the class `[\\/:*?"<>|]`. */
  predicate IsIllegal(c: char) {
    c == '\\' || c == '/' || c == ':' || c == '*' || c == '?' ||
    c == '"' || c == '<' || c == '>' || c == '|'
  }

  /** JavaScript white space and line terminators (`\s`). */
  predicate IsSpace(c: char) {
    || '\t' <= c <= '\r'
    || c == ' '
    || c == '\U{A0}'
    || c == '\U{1680}'
    || '\U{2000}' <= c <= '\U{200A}'
    || c == '\U{2028}' || c == '\U{2029}'
    || c == '\U{202F}' || c == '\U{205F}'
    || c == '\U{3000}' || c == '\U{FEFF}'
  }

  /** The length of the longest prefix of `s` made of characters satisfying `p`. */
  function RunLength(s: string, p: char -> bool): (n: nat)
    ensures n <= |s|
  {
    if s != [] && p(s[0]) then 1 + RunLength(s[1..], p) else 0
  }

  /** The run is made of characters satisfying `p`, and it is maximal: the
      character after it, if any, does not satisfy `p`. */
  lemma {:induction false} RunLengthMeans(s: string, p: char -> bool)
    ensures var n := RunLength(s, p);
            && (forall i :: 0 <= i < n ==> p(s[i]))
            && (n < |s| ==> !p(s[n]))
  {
    if s != [] && p(s[0]) {
      var t := s[1..];
      RunLengthMeans(t, p);
      var n := RunLength(s, p);
      forall i | 0 < i < n
        ensures p(s[i])
      {
        assert s[i] == t[i - 1];
      }
      if n < |s| {
        assert s[n] == t[n - 1];
      }
    }
  }

  /** `s.replace(/[...]+/g, c)` for the character class `p`: each maximal
      run of characters satisfying `p` becomes the single character `c`. */
  function ReplaceRuns(s: string, p: char -> bool, c: char): string
    decreases |s|
  {
    if s == [] then []
    else if p(s[0]) then [c] + ReplaceRuns(s[RunLength(s, p)..], p, c)
    else [s[0]] + ReplaceRuns(s[1..], p, c)
  }

  /** What a replacement leaves: every character is `c` or a character of
      `s` outside the class, and a `c` standing for a run is never followed
      by another character of the class. */
  lemma {:induction false} ReplaceRunsShape(s: string, p: char -> bool, c: char)
    ensures var r := ReplaceRuns(s, p, c);
            && (|s| > 0 ==> |r| > 0 && r[0] == (if p(s[0]) then c else s[0]))
            && (forall i :: 0 <= i < |r| ==> r[i] == c || (!p(r[i]) && r[i] in s))
            && (forall i :: 0 <= i < |r| && p(r[i]) ==>
                  r[i] == c && (i + 1 < |r| ==> !p(r[i + 1])))
    decreases |s|
  {
    if s != [] {
      RunLengthMeans(s, p);
      var k := if p(s[0]) then RunLength(s, p) else 1;
      var rest := s[k..];
      ReplaceRunsShape(rest, p, c);
      var t := ReplaceRuns(rest, p, c);
      var r := ReplaceRuns(s, p, c);
      assert r == [r[0]] + t;
      assert rest != [] ==> p(s[0]) ==> !p(rest[0]);
      forall i | 0 <= i < |t| && t[i] != c && !p(t[i])
        ensures t[i] in s
      {
        var j :| 0 <= j < |rest| && rest[j] == t[i];
        assert s[k + j] == t[i];
      }
    }
  }

  /** The number of white-space characters at the end of `s`. */
  function TrailingSpaces(s: string): (n: nat)
    ensures n <= |s|
    ensures forall i :: |s| - n <= i < |s| ==> IsSpace(s[i])
    ensures n < |s| ==> !IsSpace(s[|s| - n - 1])
  {
    if s != [] && IsSpace(s[|s| - 1]) then 1 + TrailingSpaces(s[..|s| - 1]) else 0
  }

  /** `String.prototype.trim`. */
  function Trim(s: string): (r: string)
    ensures |r| > 0 ==> !IsSpace(r[0]) && !IsSpace(r[|r| - 1])
  {
    RunLengthMeans(s, IsSpace);
    var t := s[RunLength(s, IsSpace)..];
    t[..|t| - TrailingSpaces(t)]
  }

  /** `sanitizeForFilename`. */
  function Sanitize(s: string): string {
    Trim(ReplaceRuns(ReplaceRuns(s, IsIllegal, '_'), IsSpace, ' '))
  }

  /** What `sanitizeForFilename` guarantees of its result: none of the
      characters file systems refuse, no white space at either end, and
      every white space inside is a single plain space. */
  lemma {:induction false} SanitizeShape(s: string)
    ensures var r := Sanitize(s);
            && (forall i :: 0 <= i < |r| ==> !IsIllegal(r[i]))
            && (|r| > 0 ==> !IsSpace(r[0]) && !IsSpace(r[|r| - 1]))
            && SingleSpaced(r, IsSpace, ' ')
  {
    var b := ReplaceRuns(ReplaceRuns(s, IsIllegal, '_'), IsSpace, ' ');
    NoIllegalAfterReplace(s, b);
    ReplaceRunsShape(ReplaceRuns(s, IsIllegal, '_'), IsSpace, ' ');
    var lo, hi := TrimSlice(b);
    SliceKeepsShape(b, lo, hi, Sanitize(s));
  }

  /** Neither pass leaves a character of the illegal class. */
  lemma {:induction false} NoIllegalAfterReplace(s: string, b: string)
    requires b == ReplaceRuns(ReplaceRuns(s, IsIllegal, '_'), IsSpace, ' ')
    ensures forall i :: 0 <= i < |b| ==> !IsIllegal(b[i])
  {
    var a := ReplaceRuns(s, IsIllegal, '_');
    ReplaceRunsShape(s, IsIllegal, '_');
    ReplaceRunsShape(a, IsSpace, ' ');
    forall i | 0 <= i < |b|
      ensures !IsIllegal(b[i])
    {
      if b[i] != ' ' {
        var j :| 0 <= j < |a| && a[j] == b[i];
      }
    }
  }

  /** Trimming cuts out the middle of the string: everything before the
      slice and everything after it is white space, and the slice keeps
      the characters in between as they were. */
  lemma {:induction false} TrimSlice(b: string) returns (lo: nat, hi: nat)
    ensures lo <= hi <= |b| && Trim(b) == b[lo..hi]
    ensures forall i :: 0 <= i < lo ==> IsSpace(b[i])
    ensures forall i :: hi <= i < |b| ==> IsSpace(b[i])
  {
    RunLengthMeans(b, IsSpace);
    lo := RunLength(b, IsSpace);
    var t := b[lo..];
    hi := lo + |t| - TrailingSpaces(t);
    forall i | hi <= i < |b|
      ensures IsSpace(b[i])
    {
      assert b[i] == t[i - lo];
    }
  }

  lemma {:induction false} SliceKeepsShape(b: string, lo: nat, hi: nat, r: string)
    requires lo <= hi <= |b| && r == b[lo..hi]
    requires forall i :: 0 <= i < |b| ==> !IsIllegal(b[i])
    requires SingleSpaced(b, IsSpace, ' ')
    requires |r| > 0 ==> !IsSpace(r[0]) && !IsSpace(r[|r| - 1])
    ensures forall i :: 0 <= i < |r| ==> !IsIllegal(r[i])
    ensures SingleSpaced(r, IsSpace, ' ')
  {
    forall i | 0 <= i < |r|
      ensures r[i] == b[lo + i]
    {
    }
  }

  /** A string whose white space already stands alone as single spaces. */
  predicate SingleSpaced(s: string, p: char -> bool, c: char) {
    forall i :: 0 <= i < |s| && p(s[i]) ==> s[i] == c && (i + 1 < |s| ==> !p(s[i + 1]))
  }

  /** Replacing runs changes nothing when every run is already the single `c`. */
  lemma {:induction false} ReplaceRunsIdentity(s: string, p: char -> bool, c: char)
    requires SingleSpaced(s, p, c)
    ensures ReplaceRuns(s, p, c) == s
    decreases |s|
  {
    if s != [] {
      if p(s[0]) {
        assert RunLength(s, p) == 1 by {
          assert |s| > 1 ==> !p(s[1]);
        }
      }
      assert SingleSpaced(s[1..], p, c) by {
        forall i | 0 <= i < |s[1..]| && p(s[1..][i])
          ensures s[1..][i] == c && (i + 1 < |s[1..]| ==> !p(s[1..][i + 1]))
        {
          assert s[1..][i] == s[i + 1];
        }
      }
      ReplaceRunsIdentity(s[1..], p, c);
    }
  }

  /** Replacing runs works piece by piece when the cut does not fall
      inside a run. */
  lemma {:induction false} ReplaceRunsConcat(a: string, b: string, p: char -> bool, c: char)
    requires a == [] || !p(a[|a| - 1])
    ensures ReplaceRuns(a + b, p, c) == ReplaceRuns(a, p, c) + ReplaceRuns(b, p, c)
    decreases |a|
  {
    if a == [] {
      assert a + b == b;
    } else if p(a[0]) {
      var k := RunLength(a, p);
      ReplaceRunsLeadingRunOf(a, [], p, c);
      assert a[k..][|a[k..]| - 1] == a[|a| - 1];
      ReplaceRunsConcat(a[k..], b, p, c);
      ReplaceRunsLeadingRunStep(a, b, p, c);
    } else {
      var t := a[1..];
      assert t == [] || t[|t| - 1] == a[|a| - 1];
      ReplaceRunsConcat(t, b, p, c);
      ReplaceRunsLeadingChar(a, b, p, c);
    }
  }

  lemma {:induction false} ReplaceRunsLeadingRunStep(a: string, b: string, p: char -> bool, c: char)
    requires |a| > 0 && p(a[0]) && !p(a[|a| - 1])
    requires RunLength(a, p) < |a|
    requires var t := a[RunLength(a, p)..];
             ReplaceRuns(t + b, p, c) == ReplaceRuns(t, p, c) + ReplaceRuns(b, p, c)
    ensures ReplaceRuns(a + b, p, c) == ReplaceRuns(a, p, c) + ReplaceRuns(b, p, c)
  {
    var t := a[RunLength(a, p)..];
    ReplaceRunsLeadingRunOf(a, b, p, c);
    ReplaceRunsLeadingRunOf(a, [], p, c);
    EmptyRight(a);
    EmptyRight(t);
    Associative([c], ReplaceRuns(t, p, c), ReplaceRuns(b, p, c));
  }

  lemma EmptyRight(x: string)
    ensures x + [] == x
  {
  }

  lemma {:induction false} ReplaceRunsLeadingChar(a: string, b: string, p: char -> bool, c: char)
    requires |a| > 0 && !p(a[0])
    requires ReplaceRuns(a[1..] + b, p, c) == ReplaceRuns(a[1..], p, c) + ReplaceRuns(b, p, c)
    ensures ReplaceRuns(a + b, p, c) == ReplaceRuns(a, p, c) + ReplaceRuns(b, p, c)
  {
    var x, t := a[0], a[1..];
    SplitHead(a, b);
    ReplaceRunsCons(x, t + b, p, c);
    ReplaceRunsCons(x, t, p, c);
    Associative([x], ReplaceRuns(t, p, c), ReplaceRuns(b, p, c));
  }

  lemma SplitHead(a: string, b: string)
    requires |a| > 0
    ensures a == [a[0]] + a[1..] && a + b == [a[0]] + (a[1..] + b)
  {
  }

  /** A character outside the class is copied. */
  lemma ReplaceRunsCons(x: char, t: string, p: char -> bool, c: char)
    requires !p(x)
    ensures ReplaceRuns([x] + t, p, c) == [x] + ReplaceRuns(t, p, c)
  {
    assert ([x] + t)[1..] == t;
  }

  /** A run of `p` characters between two non-`p` boundaries becomes one `c`. */
  lemma {:induction false} ReplaceRunsSplit(a: string, run: string, b: string, p: char -> bool, c: char)
    requires |run| > 0 && forall i :: 0 <= i < |run| ==> p(run[i])
    requires a == [] || !p(a[|a| - 1])
    requires b == [] || !p(b[0])
    ensures ReplaceRuns(a + run + b, p, c) == ReplaceRuns(a, p, c) + [c] + ReplaceRuns(b, p, c)
  {
    ReplaceRunsConcat(a, run + b, p, c);
    ReplaceRunsLeadingRun(run, b, p, c);
    Associative(a, run, b);
    Associative(ReplaceRuns(a, p, c), [c], ReplaceRuns(b, p, c));
  }

  lemma Associative(x: string, y: string, z: string)
    ensures x + y + z == x + (y + z)
  {
  }

  lemma {:induction false} ReplaceRunsLeadingRun(run: string, b: string, p: char -> bool, c: char)
    requires |run| > 0 && forall i :: 0 <= i < |run| ==> p(run[i])
    requires b == [] || !p(b[0])
    ensures ReplaceRuns(run + b, p, c) == [c] + ReplaceRuns(b, p, c)
  {
    RunLengthOfRun(run, b, p);
    assert (run + b)[0] == run[0];
    assert (run + b)[|run|..] == b;
  }

  lemma {:induction false} ReplaceRunsLeadingRunOf(a: string, rest: string, p: char -> bool, c: char)
    requires |a| > 0 && p(a[0]) && !p(a[|a| - 1])
    ensures RunLength(a, p) < |a|
    ensures ReplaceRuns(a + rest, p, c) == [c] + ReplaceRuns(a[RunLength(a, p)..] + rest, p, c)
  {
    var k := RunLength(a, p);
    RunLengthMeans(a, p);
    RunLengthPrefix(a, rest, p);
    assert (a + rest)[0] == a[0];
    assert (a + rest)[k..] == a[k..] + rest;
  }

  lemma {:induction false} RunLengthOfRun(run: string, b: string, p: char -> bool)
    requires forall i :: 0 <= i < |run| ==> p(run[i])
    requires b == [] || !p(b[0])
    ensures RunLength(run + b, p) == |run|
  {
    RunLengthMeans(run + b, p);
    forall i | 0 <= i < |run|
      ensures p((run + b)[i])
    {
      assert (run + b)[i] == run[i];
    }
    if b != [] {
      assert (run + b)[|run|] == b[0];
    }
  }

  lemma {:induction false} RunLengthPrefix(a: string, rest: string, p: char -> bool)
    requires RunLength(a, p) < |a|
    ensures RunLength(a + rest, p) == RunLength(a, p)
  {
    var k := RunLength(a, p);
    RunLengthMeans(a, p);
    RunLengthMeans(a + rest, p);
    assert (a + rest)[k] == a[k];
    forall i | 0 <= i < k
      ensures p((a + rest)[i])
    {
      assert (a + rest)[i] == a[i];
    }
  }

  /** Trimming a string without white space at its ends changes nothing. */
  lemma {:induction false} TrimUnchanged(r: string)
    requires |r| > 0 ==> !IsSpace(r[0]) && !IsSpace(r[|r| - 1])
    ensures Trim(r) == r
  {
    assert RunLength(r, IsSpace) == 0;
    assert r[0..] == r;
    assert TrailingSpaces(r) == 0;
  }

  /** Sanitizing a file name a second time changes nothing. */
  lemma {:induction false} SanitizeIdempotent(s: string)
    ensures Sanitize(Sanitize(s)) == Sanitize(s)
  {
    var r := Sanitize(s);
    SanitizeShape(s);
    assert SingleSpaced(r, IsIllegal, '_');
    ReplaceRunsIdentity(r, IsIllegal, '_');
    ReplaceRunsIdentity(r, IsSpace, ' ');
    TrimUnchanged(r);
    calc {
      Sanitize(r);
      Trim(ReplaceRuns(ReplaceRuns(r, IsIllegal, '_'), IsSpace, ' '));
      Trim(ReplaceRuns(r, IsSpace, ' '));
      Trim(r);
      r;
    }
  }
}

=== FILE: pdf_utils.dfy ===
/** The comparison-PDF back end (`backend/main/pdfutils.py`): validation
    of the posted ids, the reordering of the fetched equipments, the
    option/property grid and the table built from it. Cells are plain
    strings here; in the system they are reportlab paragraphs. */
module PdfUtils {
  import opened Wrappers
  import opened Sequences
  import opened Decimal
  import opened Serializers

  // ---------------------------------------------------------------------
  // _validate_ids

  /** A parsed JSON value, as the request body delivers it. */
  datatype Json =
    | JNull
    | JBool(b: bool)
    | JInt(i: int)
    | JFloat(r: real)
    | JString(s: string)
    | JArray(items: seq<Json>)
    | JObject(fields: map<string, Json>)

  /** A `Response({"detail": ...}, status=...)` error. */
  datatype ApiError = ApiError(status: int, detail: string)

  const BadRequest := 400
  const IdsRequired := "Field 'ids' is required."
  const IdsNotList := "Field 'ids' must be a list of integers."
  const IdsNotIntegers := "All ids must be integers."
  const IdsEmpty := "Empty ids list."

  /** `payload.get('ids')`: a missing key reads as `None`. */
  function IdsField(payload: map<string, Json>): Json {
    if "ids" in payload then payload["ids"] else JNull
  }

  /** Python's `int(x)` on a JSON value; `None` where it raises
      `TypeError` or `ValueError`. Booleans are integers, floats are
      truncated toward zero and strings are parsed. */
  function PyInt(x: Json): Option<int> {
    match x
    case JNull => None
    case JBool(b) => Some(if b then 1 else 0)
    case JInt(i) => Some(i)
    case JFloat(r) => Some(if r >= 0.0 then r.Floor else -((-r).Floor))
    case JString(s) => ParsePyInt(s)
    case JArray(_) => None
    case JObject(_) => None
  }

  /** `[int(x) for x in ids]`: all of them convert, or the comprehension raises. */
  function ConvertIds(xs: seq<Json>): (r: Option<seq<int>>)
    ensures r.Some? <==> forall i :: 0 <= i < |xs| ==> PyInt(xs[i]).Some?
    ensures r.Some? ==> |r.value| == |xs| && forall i :: 0 <= i < |xs| ==> PyInt(xs[i]) == Some(r.value[i])
  {
    if xs == [] then Some([])
    else
      var init, last := xs[..|xs| - 1], xs[|xs| - 1];
      match ConvertIds(init)
      case None => None
      case Some(ids) =>
        match PyInt(last)
        case None => None
        case Some(v) => Some(ids + [v])
  }

  /** `_validate_ids`: the ids as integers, or the first check that fails. */
  function ValidateIds(payload: map<string, Json>): Result<seq<int>, ApiError> {
    var ids := IdsField(payload);
    if ids.JNull? then Failure(ApiError(BadRequest, IdsRequired))
    else if !ids.JArray? then Failure(ApiError(BadRequest, IdsNotList))
    else
      match ConvertIds(ids.items)
      case None => Failure(ApiError(BadRequest, IdsNotIntegers))
      case Some(converted) =>
        if converted == [] then Failure(ApiError(BadRequest, IdsEmpty)) else Success(converted)
  }

  /** The checks run in a fixed order and the first failure is reported;
      on success the ids are the converted elements, in order, and there
      is at least one. */
  lemma ValidateIdsOutcome(payload: map<string, Json>)
    ensures var ids := IdsField(payload);
            && (ValidateIds(payload) == Failure(ApiError(BadRequest, IdsRequired)) <==>
                  "ids" !in payload || payload["ids"] == JNull)
            && (ValidateIds(payload) == Failure(ApiError(BadRequest, IdsNotList)) <==>
                  !ids.JNull? && !ids.JArray?)
            && (ValidateIds(payload) == Failure(ApiError(BadRequest, IdsNotIntegers)) <==>
                  ids.JArray? && exists i :: 0 <= i < |ids.items| && PyInt(ids.items[i]).None?)
            && (ValidateIds(payload) == Failure(ApiError(BadRequest, IdsEmpty)) <==>
                  ids == JArray([]))
            && (ValidateIds(payload).Success? <==>
                  ids.JArray? && |ids.items| > 0 && forall i :: 0 <= i < |ids.items| ==> PyInt(ids.items[i]).Some?)
    ensures ValidateIds(payload).Success? ==>
              var ids, out := IdsField(payload).items, ValidateIds(payload).value;
              && |out| == |ids| > 0
              && forall i :: 0 <= i < |ids| ==> PyInt(ids[i]) == Some(out[i])
  {
  }

  /** Every list of integers is accepted as it is. */
  lemma ValidateIntegerList(payload: map<string, Json>, ids: seq<int>)
    requires |ids| > 0
    requires IdsField(payload) == JArray(seq(|ids|, i requires 0 <= i < |ids| => JInt(ids[i])))
    ensures ValidateIds(payload) == Success(ids)
  {
    var xs := IdsField(payload).items;
    var out := ConvertIds(xs).value;
    assert out == ids by {
      forall i | 0 <= i < |ids|
        ensures out[i] == ids[i]
      {
        assert PyInt(xs[i]) == Some(out[i]);
      }
    }
  }

  // ---------------------------------------------------------------------
  // _fetch_ordered_equipments, line 51

  /** `[eq_by_id[i] for i in ids_int if i in eq_by_id]`. */
  function OrderedFetch<E>(ids: seq<int>, byId: map<int, E>): (r: seq<E>)
    ensures |r| <= |ids|
  {
    if ids == [] then []
    else
      var init, last := ids[..|ids| - 1], ids[|ids| - 1];
      if last in byId then OrderedFetch(init, byId) + [byId[last]] else OrderedFetch(init, byId)
  }

  /** The positions of the requested ids that were found, ascending. */
  function FoundPositions<E>(ids: seq<int>, byId: map<int, E>): (r: seq<nat>)
    ensures forall k :: 0 <= k < |r| ==> r[k] < |ids|
  {
    if ids == [] then []
    else
      var n := |ids| - 1;
      if ids[n] in byId then FoundPositions(ids[..n], byId) + [n] else FoundPositions(ids[..n], byId)
  }

  /** The fetch follows the requested order: the k-th equipment is the one
      for the k-th found position; positions ascend; every requested id
      that exists is there (so an id requested twice gives its equipment
      twice), and nothing else is. */
  lemma {:induction false} OrderedFetchPositions<E>(ids: seq<int>, byId: map<int, E>)
    ensures var r, pos := OrderedFetch(ids, byId), FoundPositions(ids, byId);
            && |pos| == |r|
            && (forall k :: 0 <= k < |pos| ==> ids[pos[k]] in byId && r[k] == byId[ids[pos[k]]])
            && (forall k1, k2 :: 0 <= k1 < k2 < |pos| ==> pos[k1] < pos[k2])
            && (forall i :: 0 <= i < |ids| ==> (i in pos <==> ids[i] in byId))
  {
    if ids != [] {
      var n := |ids| - 1;
      var init := ids[..n];
      OrderedFetchPositions(init, byId);
      assert forall i :: 0 <= i < n ==> init[i] == ids[i];
    }
  }

  /** When every requested id exists, the fetch is the requested list, mapped. */
  lemma {:induction false} OrderedFetchAllFound<E>(ids: seq<int>, byId: map<int, E>)
    requires forall i :: 0 <= i < |ids| ==> ids[i] in byId
    ensures |OrderedFetch(ids, byId)| == |ids|
    ensures forall i :: 0 <= i < |ids| ==> OrderedFetch(ids, byId)[i] == byId[ids[i]]
  {
    if ids != [] {
      var n := |ids| - 1;
      OrderedFetchAllFound(ids[..n], byId);
    }
  }

  // ---------------------------------------------------------------------
  // _aggregate_options_props

  /** What the PDF code reads of one serialized equipment
      (`SelectedEquipmentSerializer`'s output): every `.get` may find nothing. */
  datatype EquipmentData = EquipmentData(
    name: Option<string>,
    price: Option<int>,
    carName: Option<string>,
    brandName: Option<string>,
    options: seq<OptionGroup>)

  /** `opt.get('name') or ''`: a missing or empty name files under `''`. */
  function OptName(o: OptionGroup): string {
    o.name.GetOr("")
  }

  /** The options of all equipments, equipment by equipment. */
  function AllOptions(data: seq<EquipmentData>): seq<OptionGroup> {
    if data == [] then [] else AllOptions(data[..|data| - 1]) + data[|data| - 1].options
  }

  /** The name each option is filed under, option by option. */
  function NamesOf(opts: seq<OptionGroup>): seq<string> {
    if opts == [] then [] else NamesOf(opts[..|opts| - 1]) + [OptName(opts[|opts| - 1])]
  }

  /** A title Python treats as true: present and not empty. */
  predicate Truthy(t: Option<string>) {
    t.Some? && t.value != ""
  }

  /** The truthy titles of `props`, in order, repeats kept. */
  function TruthyTitles(props: seq<PropertyData>): seq<string> {
    if props == [] then []
    else
      var last := props[|props| - 1];
      TruthyTitles(props[..|props| - 1]) + (if Truthy(last.title) then [last.title.value] else [])
  }

  /** The truthy titles seen under options filed as `name`, in order, repeats kept. */
  function TitlesUnder(opts: seq<OptionGroup>, name: string): seq<string> {
    if opts == [] then []
    else
      var last := opts[|opts| - 1];
      TitlesUnder(opts[..|opts| - 1], name) + (if OptName(last) == name then TruthyTitles(last.properties) else [])
  }

  /** The `OrderedDict` of option name to titles: its keys in insertion
      order, and each key's list. */
  datatype OptionsProps = OptionsProps(names: seq<string>, titles: map<string, seq<string>>)

  /** Under each of `names`, the truthy titles seen under it in `opts`,
      once each, in the order first seen. */
  function TitlesMap(opts: seq<OptionGroup>, names: seq<string>): map<string, seq<string>> {
    map n | n in names :: FirstOccurrences(TitlesUnder(opts, n))
  }

  /** The state of the aggregation after the options `opts`. */
  predicate Aggregated(opts: seq<OptionGroup>, names: seq<string>, titles: map<string, seq<string>>) {
    names == FirstOccurrences(NamesOf(opts)) && titles == TitlesMap(opts, names)
  }

  /** What `_aggregate_options_props` computes: every option name once, in
      the order first seen, and under each name its truthy titles once, in
      the order first seen. */
  function OptionsPropsOf(data: seq<EquipmentData>): OptionsProps {
    var opts := AllOptions(data);
    var names := FirstOccurrences(NamesOf(opts));
    OptionsProps(names, TitlesMap(opts, names))
  }

  /** `_aggregate_options_props`. */
  method AggregateOptionsProps(data: seq<EquipmentData>) returns (r: OptionsProps)
    ensures r == OptionsPropsOf(data)
  {
    var names: seq<string> := [];
    var titles: map<string, seq<string>> := map[];
    ghost var done: seq<OptionGroup> := [];
    var i := 0;
    while i < |data|
      invariant 0 <= i <= |data|
      invariant done == AllOptions(data[..i])
      invariant Aggregated(done, names, titles)
    {
      var opts := data[i].options;
      ghost var base := done;
      var j := 0;
      while j < |opts|
        invariant 0 <= j <= |opts|
        invariant done == base + opts[..j]
        invariant Aggregated(done, names, titles)
      {
        var opt := opts[j];
        names, titles := AddOption(done, opt, names, titles);
        AppendTake(base, opts, j);
        done := done + [opt];
        j := j + 1;
      }
      AllOptionsStep(data, i);
      i := i + 1;
    }
    AllOptionsStep(data, |data|);
    r := OptionsProps(names, titles);
  }

  /** One option: its name is filed (`setdefault(opt_name, [])`), then its
      properties' titles are added. */
  method AddOption(ghost done: seq<OptionGroup>, opt: OptionGroup, names: seq<string>, titles: map<string, seq<string>>)
    returns (names': seq<string>, titles': map<string, seq<string>>)
    requires Aggregated(done, names, titles)
    ensures Aggregated(done + [opt], names', titles')
  {
    var optName := OptName(opt);
    AggregateNameStep(done, opt, names, titles);
    names', titles' := names, titles;
    if optName !in titles {
      names' := names + [optName];
      titles' := titles[optName := []];
    }
    assert Aggregated(done + [opt.(properties := [])], names', titles');
    titles' := AddTitles(done, opt, names', titles');
  }

  /** The innermost loop of `_aggregate_options_props`: the titles of one
      option's properties, appended under the option's name. */
  method AddTitles(ghost done: seq<OptionGroup>, opt: OptionGroup, names: seq<string>, titles: map<string, seq<string>>)
    returns (titles': map<string, seq<string>>)
    requires Aggregated(done + [opt.(properties := [])], names, titles)
    ensures Aggregated(done + [opt], names, titles')
  {
    var optName := OptName(opt);
    var props := opt.properties;
    titles' := titles;
    var k := 0;
    assert opt.(properties := props[..0]) == opt.(properties := []);
    while k < |props|
      invariant 0 <= k <= |props|
      invariant Aggregated(done + [opt.(properties := props[..k])], names, titles')
    {
      var title := props[k].title;
      AggregateTitleStep(done, opt, k, names, titles');
      if Truthy(title) && title.value !in titles'[optName] {
        titles' := titles'[optName := titles'[optName] + [title.value]];
      }
      assert Aggregated(done + [opt.(properties := props[..k + 1])], names, titles');
      k := k + 1;
    }
    assert props[..k] == props;
    assert opt.(properties := props[..k]) == opt;
  }

  lemma AppendTake<T>(a: seq<T>, s: seq<T>, j: nat)
    requires j < |s|
    ensures (a + s[..j]) + [s[j]] == a + s[..j + 1]
  {
    assert s[..j + 1] == s[..j] + [s[j]];
  }

  /** The options of one more equipment come after those already seen;
      with `i == |data|` this is all of them. */
  lemma AllOptionsStep(data: seq<EquipmentData>, i: nat)
    requires i <= |data|
    ensures i < |data| ==> AllOptions(data[..i + 1]) == AllOptions(data[..i]) + data[i].options
    ensures i == |data| ==> AllOptions(data[..i]) == AllOptions(data)
  {
    if i < |data| {
      assert data[..i + 1][..i] == data[..i];
    } else {
      assert data[..i] == data;
    }
  }

  /** An option name never seen has no titles. */
  lemma {:induction false} TitlesUnderAbsent(opts: seq<OptionGroup>, n: string)
    requires n !in NamesOf(opts)
    ensures TitlesUnder(opts, n) == []
  {
    if opts != [] {
      var init := opts[..|opts| - 1];
      assert NamesOf(opts) == NamesOf(init) + [OptName(opts[|opts| - 1])];
      TitlesUnderAbsent(init, n);
    }
  }

  /** Options that leave every name's titles alone leave the map alone. */
  lemma TitlesMapSame(a: seq<OptionGroup>, b: seq<OptionGroup>, names: seq<string>)
    requires forall m :: TitlesUnder(a, m) == TitlesUnder(b, m)
    ensures TitlesMap(a, names) == TitlesMap(b, names)
  {
  }

  /** Filing a new name with no titles yet adds an empty list for it. */
  lemma TitlesMapExtend(opts: seq<OptionGroup>, names: seq<string>, n: string)
    requires TitlesUnder(opts, n) == []
    ensures TitlesMap(opts, names + [n]) == TitlesMap(opts, names)[n := []]
  {
    var m1, m2 := TitlesMap(opts, names + [n]), TitlesMap(opts, names)[n := []];
    forall m | m in m1
      ensures m in m2 && m1[m] == m2[m]
    {
      if m != n {
        assert m in names;
      }
    }
    forall m | m in m2
      ensures m in m1
    {
      assert m in names + [n];
    }
  }

  /** One more title under `n` changes only `n`'s list. */
  lemma TitlesMapAppend(before: seq<OptionGroup>, after: seq<OptionGroup>, names: seq<string>, n: string, extra: seq<string>)
    requires n in names
    requires forall m :: m != n ==> TitlesUnder(after, m) == TitlesUnder(before, m)
    requires TitlesUnder(after, n) == TitlesUnder(before, n) + extra
    ensures TitlesMap(after, names) == TitlesMap(before, names)[n := FirstOccurrences(TitlesUnder(before, n) + extra)]
  {
    var m1, m2 := TitlesMap(after, names), TitlesMap(before, names)[n := FirstOccurrences(TitlesUnder(before, n) + extra)];
    assert forall m :: m in m1 <==> m in m2;
    assert forall m :: m in m1 ==> m1[m] == m2[m];
  }

  /** Meeting an option files its name, even when it has no properties. */
  lemma AggregateNameStep(done: seq<OptionGroup>, opt: OptionGroup, names: seq<string>, titles: map<string, seq<string>>)
    requires Aggregated(done, names, titles)
    ensures var n := OptName(opt);
            var names' := if n in titles then names else names + [n];
            var titles' := if n in titles then titles else titles[n := []];
            Aggregated(done + [opt.(properties := [])], names', titles')
  {
    var n := OptName(opt);
    var opts := done + [opt.(properties := [])];
    assert opts[..|opts| - 1] == done;
    assert NamesOf(opts) == NamesOf(done) + [n];
    FirstOccurrencesAppend(NamesOf(done), n);
    MemberOfFirstOccurrences(NamesOf(done), n);
    assert forall m :: TitlesUnder(opts, m) == TitlesUnder(done, m);
    TitlesMapSame(opts, done, names);
    if n !in titles {
      TitlesUnderAbsent(done, n);
      TitlesMapExtend(opts, names, n);
    }
  }

  /** The titles under `m` after one more property of the current option. */
  lemma TitlesUnderStep(done: seq<OptionGroup>, opt: OptionGroup, k: nat, m: string)
    requires k < |opt.properties|
    ensures var t := opt.properties[k].title;
            TitlesUnder(done + [opt.(properties := opt.properties[..k + 1])], m) ==
            TitlesUnder(done + [opt.(properties := opt.properties[..k])], m) +
              (if OptName(opt) == m && Truthy(t) then [t.value] else [])
  {
    var ok, ok1 := opt.(properties := opt.properties[..k]), opt.(properties := opt.properties[..k + 1]);
    assert (done + [ok])[..|done|] == done;
    assert (done + [ok1])[..|done|] == done;
    assert ok1.properties[..k] == ok.properties;
  }

  lemma TitlesUnderStepAll(done: seq<OptionGroup>, opt: OptionGroup, k: nat)
    requires k < |opt.properties|
    ensures var t := opt.properties[k].title;
            var before := done + [opt.(properties := opt.properties[..k])];
            var after := done + [opt.(properties := opt.properties[..k + 1])];
            && TitlesUnder(after, OptName(opt)) ==
                 TitlesUnder(before, OptName(opt)) + (if Truthy(t) then [t.value] else [])
            && forall m :: m != OptName(opt) ==> TitlesUnder(after, m) == TitlesUnder(before, m)
  {
    TitlesUnderStep(done, opt, k, OptName(opt));
    forall m | m != OptName(opt)
      ensures TitlesUnder(done + [opt.(properties := opt.properties[..k + 1])], m) ==
              TitlesUnder(done + [opt.(properties := opt.properties[..k])], m)
    {
      TitlesUnderStep(done, opt, k, m);
    }
  }

  lemma NamesOfAppend(s: seq<OptionGroup>, o: OptionGroup)
    ensures NamesOf(s + [o]) == NamesOf(s) + [OptName(o)]
  {
    assert (s + [o])[..|s|] == s;
  }

  /** Meeting a property appends its title under the option's name, unless
      it is falsy or already there. */
  lemma AggregateTitleStep(done: seq<OptionGroup>, opt: OptionGroup, k: nat, names: seq<string>, titles: map<string, seq<string>>)
    requires k < |opt.properties|
    requires Aggregated(done + [opt.(properties := opt.properties[..k])], names, titles)
    ensures OptName(opt) in titles
    ensures var t := opt.properties[k].title;
            var n := OptName(opt);
            var titles' := if Truthy(t) && t.value !in titles[n] then titles[n := titles[n] + [t.value]] else titles;
            Aggregated(done + [opt.(properties := opt.properties[..k + 1])], names, titles')
  {
    var n := OptName(opt);
    var before := done + [opt.(properties := opt.properties[..k])];
    var after := done + [opt.(properties := opt.properties[..k + 1])];
    NamesOfAppend(done, opt.(properties := opt.properties[..k]));
    NamesOfAppend(done, opt.(properties := opt.properties[..k + 1]));
    MemberOfFirstOccurrences(NamesOf(before), n);
    var t := opt.properties[k].title;
    var extra := if Truthy(t) then [t.value] else [];
    TitlesUnderStepAll(done, opt, k);
    TitlesMapAppend(before, after, names, n, extra);
    TitleAppended(TitlesUnder(before, n), t, titles, n);
  }

  /** `if title and title not in titles[n]: titles[n].append(title)`, on the de-duplicated list. */
  lemma TitleAppended(seen: seq<string>, t: Option<string>, titles: map<string, seq<string>>, n: string)
    requires n in titles && titles[n] == FirstOccurrences(seen)
    ensures var extra := if Truthy(t) then [t.value] else [];
            titles[n := FirstOccurrences(seen + extra)] ==
            if Truthy(t) && t.value !in titles[n] then titles[n := titles[n] + [t.value]] else titles
  {
    if Truthy(t) {
      FirstOccurrencesAppend(seen, t.value);
      MemberOfFirstOccurrences(seen, t.value);
    } else {
      assert seen + [] == seen;
    }
  }

  // Properties of the aggregation.

  lemma {:induction false} TruthyTitlesMember(props: seq<PropertyData>, t: string)
    ensures t in TruthyTitles(props) <==>
            t != "" && exists k :: 0 <= k < |props| && props[k].title == Some(t)
  {
    if props != [] {
      var init := props[..|props| - 1];
      TruthyTitlesMember(init, t);
      assert forall k :: 0 <= k < |init| ==> init[k] == props[k];
    }
  }

  lemma {:induction false} TitlesUnderMember(opts: seq<OptionGroup>, n: string, t: string)
    ensures t in TitlesUnder(opts, n) <==>
            exists j :: 0 <= j < |opts| && OptName(opts[j]) == n && t in TruthyTitles(opts[j].properties)
  {
    if opts != [] {
      var init := opts[..|opts| - 1];
      TitlesUnderMember(init, n, t);
      assert forall j :: 0 <= j < |init| ==> init[j] == opts[j];
    }
  }

  lemma {:induction false} NamesOfMember(opts: seq<OptionGroup>, n: string)
    ensures n in NamesOf(opts) <==> exists j :: 0 <= j < |opts| && OptName(opts[j]) == n
  {
    if opts != [] {
      var init := opts[..|opts| - 1];
      NamesOfMember(init, n);
      assert forall j :: 0 <= j < |init| ==> init[j] == opts[j];
    }
  }

  /** An option is among all options exactly when some equipment has it. */
  lemma {:induction false} AllOptionsMember(data: seq<EquipmentData>, o: OptionGroup)
    ensures o in AllOptions(data) <==> exists e :: 0 <= e < |data| && o in data[e].options
  {
    if data != [] {
      var init := data[..|data| - 1];
      AllOptionsMember(init, o);
      assert forall e :: 0 <= e < |init| ==> init[e] == data[e];
    }
  }

  /** The keys of the aggregation: each option name once, in the order the
      names are first met, and every name met, also for options without
      properties; a missing or empty name is filed as `''`. */
  lemma OptionsPropsNames(data: seq<EquipmentData>, n: string)
    ensures var r, opts := OptionsPropsOf(data), AllOptions(data);
            && NoDuplicates(r.names)
            && (n in r.names <==> exists e, j :: 0 <= e < |data| && 0 <= j < |data[e].options| &&
                                     OptName(data[e].options[j]) == n)
            && (forall a, b :: 0 <= a < b < |r.names| ==>
                  IndexOf(NamesOf(opts), r.names[a]) < IndexOf(NamesOf(opts), r.names[b]))
  {
    var opts := AllOptions(data);
    MemberOfFirstOccurrences(NamesOf(opts), n);
    NamesOfMember(opts, n);
    FirstOccurrencesOrder(NamesOf(opts));
    if exists j :: 0 <= j < |opts| && OptName(opts[j]) == n {
      var j :| 0 <= j < |opts| && OptName(opts[j]) == n;
      AllOptionsMember(data, opts[j]);
    }
    if exists e, j :: 0 <= e < |data| && 0 <= j < |data[e].options| && OptName(data[e].options[j]) == n {
      var e, j :| 0 <= e < |data| && 0 <= j < |data[e].options| && OptName(data[e].options[j]) == n;
      AllOptionsMember(data, data[e].options[j]);
    }
  }

  /** The titles under a name: truthy, each once, in the order first met,
      and every truthy title of every property of an option filed under
      that name. */
  lemma OptionsPropsTitles(data: seq<EquipmentData>, n: string, t: string)
    requires n in OptionsPropsOf(data).names
    ensures var r, opts := OptionsPropsOf(data), AllOptions(data);
            && n in r.titles
            && NoDuplicates(r.titles[n])
            && (t in r.titles[n] <==> t != "" && FiledTitle(data, n, t))
            && (forall a, b :: 0 <= a < b < |r.titles[n]| ==>
                  IndexOf(TitlesUnder(opts, n), r.titles[n][a]) < IndexOf(TitlesUnder(opts, n), r.titles[n][b]))
  {
    var seen := TitlesUnder(AllOptions(data), n);
    assert OptionsPropsOf(data).titles[n] == FirstOccurrences(seen);
    FirstOccurrencesFacts(seen, t);
    TitleSeenIff(data, n, t);
  }

  lemma TitleSeenIff(data: seq<EquipmentData>, n: string, t: string)
    ensures t in TitlesUnder(AllOptions(data), n) <==> t != "" && FiledTitle(data, n, t)
  {
    if t in TitlesUnder(AllOptions(data), n) {
      TitleSeenIn(data, n, t);
    }
    if t != "" && FiledTitle(data, n, t) {
      TitleFiledSeen(data, n, t);
    }
  }

  /** Some property of an option filed as `n` carries the title `t`. */
  ghost predicate FiledTitle(data: seq<EquipmentData>, n: string, t: string) {
    exists e, j, k :: 0 <= e < |data| && 0 <= j < |data[e].options| &&
                      0 <= k < |data[e].options[j].properties| &&
                      OptName(data[e].options[j]) == n &&
                      data[e].options[j].properties[k].title == Some(t)
  }

  lemma TitleSeenIn(data: seq<EquipmentData>, n: string, t: string)
    requires t in TitlesUnder(AllOptions(data), n)
    ensures t != "" && FiledTitle(data, n, t)
  {
    var opts := AllOptions(data);
    TitlesUnderMember(opts, n, t);
    var j :| 0 <= j < |opts| && OptName(opts[j]) == n && t in TruthyTitles(opts[j].properties);
    TruthyTitlesMember(opts[j].properties, t);
    var k :| 0 <= k < |opts[j].properties| && opts[j].properties[k].title == Some(t);
    AllOptionsMember(data, opts[j]);
    var e :| 0 <= e < |data| && opts[j] in data[e].options;
    var j' :| 0 <= j' < |data[e].options| && data[e].options[j'] == opts[j];
    assert data[e].options[j'].properties[k].title == Some(t);
  }

  lemma TitleFiledSeen(data: seq<EquipmentData>, n: string, t: string)
    requires t != "" && FiledTitle(data, n, t)
    ensures t in TitlesUnder(AllOptions(data), n)
  {
    var opts := AllOptions(data);
    var e, j, k :| 0 <= e < |data| && 0 <= j < |data[e].options| &&
                   0 <= k < |data[e].options[j].properties| &&
                   OptName(data[e].options[j]) == n &&
                   data[e].options[j].properties[k].title == Some(t);
    var o := data[e].options[j];
    AllOptionsMember(data, o);
    TruthyTitlesMember(o.properties, t);
    var j' :| 0 <= j' < |opts| && opts[j'] == o;
    TitlesUnderMember(opts, n, t);
  }

  // ---------------------------------------------------------------------
  // _build_header_row

  /** One equipment's header cell: brand in bold, then model, name and the
      price with comma thousands grouping; a missing part reads as `''`,
      a missing price as `0`. */
  function HeaderText(eq: EquipmentData): string {
    HeaderLabel(eq) + GroupThousands(eq.price.GetOr(0))
  }

  /** The header cell up to the price. */
  function HeaderLabel(eq: EquipmentData): string {
    "<b>" + eq.brandName.GetOr("") + "</b><br/>" + eq.carName.GetOr("") + "<br/>" + eq.name.GetOr("") + "<br/>"
  }

  /** `_build_header_row`: an empty corner cell, then one cell per equipment. */
  method BuildHeaderRow(data: seq<EquipmentData>) returns (cells: seq<string>)
    ensures |cells| == 1 + |data| && cells[0] == ""
    ensures forall e :: 0 <= e < |data| ==> cells[e + 1] == HeaderText(data[e])
  {
    cells := [""];
    for e := 0 to |data|
      invariant |cells| == 1 + e && cells[0] == ""
      invariant forall x :: 0 <= x < e ==> cells[x + 1] == HeaderText(data[x])
    {
      var eq := data[e];
      var brand := eq.brandName.GetOr("");
      var model := eq.carName.GetOr("");
      var name := eq.name.GetOr("");
      var price := eq.price.GetOr(0);
      var priceStr := GroupThousands(price);
      cells := cells + ["<b>" + brand + "</b><br/>" + model + "<br/>" + name + "<br/>" + priceStr];
    }
  }

  /** The header cell ends with the price, grouped with commas; read
      without its commas it is `str(price)`, and a missing price shows
      as `0`. */
  lemma HeaderTextPrice(eq: EquipmentData)
    ensures var text, price := HeaderText(eq), GroupThousands(eq.price.GetOr(0));
            && |text| >= |price|
            && text[|text| - |price|..] == price
            && Filter(price, NotComma) == IntToString(eq.price.GetOr(0))
            && (eq.price.None? ==> price == "0")
  {
    var head := HeaderLabel(eq);
    var price := GroupThousands(eq.price.GetOr(0));
    assert (head + price)[|head + price| - |price|..] == price;
    ThousandsDigits(eq.price.GetOr(0));
  }

  // ---------------------------------------------------------------------
  // _equipment_has_prop

  /** Some property of `props` is titled `title`: the inner search loop. */
  function HasTitle(props: seq<PropertyData>, title: string): bool {
    if props == [] then false
    else if props[0].title == Some(title) then true
    else HasTitle(props[1..], title)
  }

  /** Some option of `opts` is named exactly `optName` and has a property
      titled `title`: the outer search loop. */
  function HasPropIn(opts: seq<OptionGroup>, optName: string, title: string): bool {
    if opts == [] then false
    else if opts[0].name == Some(optName) && HasTitle(opts[0].properties, title) then true
    else HasPropIn(opts[1..], optName, title)
  }

  /** `_equipment_has_prop`: the option's own name is compared, without the
      `or ''` the aggregation applies. */
  function EquipmentHasProp(eq: EquipmentData, optName: string, title: string): bool {
    HasPropIn(eq.options, optName, title)
  }

  lemma {:induction false} HasTitleMeans(props: seq<PropertyData>, title: string)
    ensures HasTitle(props, title) <==> exists k :: 0 <= k < |props| && props[k].title == Some(title)
  {
    if props != [] {
      HasTitleMeans(props[1..], title);
      assert forall k :: 0 < k < |props| ==> props[1..][k - 1] == props[k];
    }
  }

  lemma {:induction false} HasPropInMeans(opts: seq<OptionGroup>, optName: string, title: string)
    ensures HasPropIn(opts, optName, title) <==>
            exists j, k :: 0 <= j < |opts| && 0 <= k < |opts[j].properties| &&
                           opts[j].name == Some(optName) && opts[j].properties[k].title == Some(title)
  {
    if opts != [] {
      HasTitleMeans(opts[0].properties, title);
      HasPropInMeans(opts[1..], optName, title);
      assert forall j :: 0 < j < |opts| ==> opts[1..][j - 1] == opts[j];
    }
  }

  /** The search succeeds exactly when the equipment has an option whose
      name is `optName` itself (a missing name never matches) with a
      property titled `title`. */
  lemma EquipmentHasPropMeans(eq: EquipmentData, optName: string, title: string)
    ensures EquipmentHasProp(eq, optName, title) <==>
            exists j, k :: 0 <= j < |eq.options| && 0 <= k < |eq.options[j].properties| &&
                           eq.options[j].name == Some(optName) && eq.options[j].properties[k].title == Some(title)
  {
    HasPropInMeans(eq.options, optName, title);
  }

  // ---------------------------------------------------------------------
  // _build_table_rows

  /** A table row: its cells, left to right. */
  type Row = seq<string>

  const CheckMark := "\U{2713}"

  /** The cell of one equipment in a property row. */
  function Mark(eq: EquipmentData, optName: string, title: string): string {
    if EquipmentHasProp(eq, optName, title) then CheckMark else ""
  }

  /** The marks of `data`, one per equipment. */
  function Marks(data: seq<EquipmentData>, optName: string, title: string): (r: seq<string>)
    ensures |r| == |data|
  {
    if data == [] then [] else Marks(data[..|data| - 1], optName, title) + [Mark(data[|data| - 1], optName, title)]
  }

  /** The header row of an option: its name, then one blank per equipment. */
  function OptionRow(optName: string, n: nat): Row {
    [optName] + seq(n, _ => "")
  }

  /** The rows of an option's properties, one per title. */
  function PropRows(data: seq<EquipmentData>, optName: string, titles: seq<string>): (r: seq<Row>)
    ensures |r| == |titles|
  {
    if titles == [] then []
    else
      var last := titles[|titles| - 1];
      PropRows(data, optName, titles[..|titles| - 1]) + [[last] + Marks(data, optName, last)]
  }

  /** The keys all have a list. */
  predicate HasLists(names: seq<string>, titles: map<string, seq<string>>) {
    forall i :: 0 <= i < |names| ==> names[i] in titles
  }

  /** What `_build_table_rows` returns: per option, its row and then its
      property rows. */
  function TableRows(data: seq<EquipmentData>, names: seq<string>, titles: map<string, seq<string>>): seq<Row>
    requires HasLists(names, titles)
  {
    if names == [] then []
    else
      var last := names[|names| - 1];
      TableRows(data, names[..|names| - 1], titles) + [OptionRow(last, |data|)] + PropRows(data, last, titles[last])
  }

  /** The number of rows the options take: one per option and one per title. */
  function RowCount(names: seq<string>, titles: map<string, seq<string>>): nat
    requires HasLists(names, titles)
  {
    if names == [] then 0
    else RowCount(names[..|names| - 1], titles) + 1 + |titles[names[|names| - 1]]|
  }

  /** `_build_table_rows`. */
  method BuildTableRows(data: seq<EquipmentData>, names: seq<string>, titles: map<string, seq<string>>)
    returns (rows: seq<Row>)
    requires HasLists(names, titles)
    ensures rows == TableRows(data, names, titles)
  {
    rows := [];
    for i := 0 to |names|
      invariant rows == TableRows(data, names[..i], titles)
    {
      var optName := names[i];
      var props := titles[optName];
      ghost var start := rows + [OptionRow(optName, |data|)];
      rows := rows + [OptionRow(optName, |data|)];
      for k := 0 to |props|
        invariant rows == start + PropRows(data, optName, props[..k])
      {
        var propTitle := props[k];
        var row := PropertyRow(data, optName, propTitle);
        PropRowsStep(data, optName, props, k);
        rows := rows + [row];
      }
      assert props[..|props|] == props;
      TableRowsStep(data, names, titles, i);
    }
    TableRowsStep(data, names, titles, |names|);
  }

  /** One property row of `_build_table_rows`: the title, then a mark per
      equipment. */
  method PropertyRow(data: seq<EquipmentData>, optName: string, propTitle: string) returns (row: Row)
    ensures row == [propTitle] + Marks(data, optName, propTitle)
  {
    row := [propTitle];
    for e := 0 to |data|
      invariant row == [propTitle] + Marks(data[..e], optName, propTitle)
    {
      var mark := if EquipmentHasProp(data[e], optName, propTitle) then CheckMark else "";
      MarksStep(data, e, optName, propTitle);
      row := row + [mark];
    }
    MarksStep(data, |data|, optName, propTitle);
  }

  lemma MarksStep(data: seq<EquipmentData>, e: nat, optName: string, title: string)
    requires e <= |data|
    ensures e < |data| ==> Marks(data[..e + 1], optName, title) == Marks(data[..e], optName, title) + [Mark(data[e], optName, title)]
    ensures e == |data| ==> Marks(data[..e], optName, title) == Marks(data, optName, title)
  {
    if e < |data| {
      assert data[..e + 1][..e] == data[..e];
    } else {
      assert data[..e] == data;
    }
  }

  lemma PropRowsStep(data: seq<EquipmentData>, optName: string, props: seq<string>, k: nat)
    requires k < |props|
    ensures PropRows(data, optName, props[..k + 1]) ==
            PropRows(data, optName, props[..k]) + [[props[k]] + Marks(data, optName, props[k])]
    ensures k + 1 == |props| ==> props[..k + 1] == props
  {
    assert props[..k + 1][..k] == props[..k];
  }

  lemma TableRowsStep(data: seq<EquipmentData>, names: seq<string>, titles: map<string, seq<string>>, i: nat)
    requires HasLists(names, titles) && i <= |names|
    ensures i < |names| ==>
              TableRows(data, names[..i + 1], titles) ==
              TableRows(data, names[..i], titles) + [OptionRow(names[i], |data|)] + PropRows(data, names[i], titles[names[i]])
    ensures i == |names| ==> TableRows(data, names[..i], titles) == TableRows(data, names, titles)
  {
    if i < |names| {
      assert names[..i + 1][..i] == names[..i];
    } else {
      assert names[..i] == names;
    }
  }

  // Properties of the rows.

  lemma {:induction false} MarksAt(data: seq<EquipmentData>, optName: string, title: string, e: nat)
    requires e < |data|
    ensures Marks(data, optName, title)[e] == Mark(data[e], optName, title)
  {
    if e < |data| - 1 {
      MarksAt(data[..|data| - 1], optName, title, e);
    }
  }

  lemma {:induction false} PropRowsAt(data: seq<EquipmentData>, optName: string, titles: seq<string>, k: nat)
    requires k < |titles|
    ensures PropRows(data, optName, titles)[k] == [titles[k]] + Marks(data, optName, titles[k])
  {
    if k < |titles| - 1 {
      PropRowsAt(data, optName, titles[..|titles| - 1], k);
    }
  }

  /** There are as many rows as options plus titles, and every row has a
      cell for the label and one per equipment. */
  lemma {:induction false} TableRowsShape(data: seq<EquipmentData>, names: seq<string>, titles: map<string, seq<string>>)
    requires HasLists(names, titles)
    ensures |TableRows(data, names, titles)| == RowCount(names, titles)
    ensures forall r :: 0 <= r < |TableRows(data, names, titles)| ==> |TableRows(data, names, titles)[r]| == 1 + |data|
  {
    if names != [] {
      var init, last := names[..|names| - 1], names[|names| - 1];
      TableRowsShape(data, init, titles);
      var prev := TableRows(data, init, titles);
      var block := [OptionRow(last, |data|)] + PropRows(data, last, titles[last]);
      assert TableRows(data, names, titles) == prev + block;
      forall r | 0 <= r < |block|
        ensures |block[r]| == 1 + |data|
      {
        if r > 0 {
          PropRowsAt(data, last, titles[last], r - 1);
        }
      }
    }
  }

  /** Option `i`'s row sits after the rows of the options before it, and
      its property rows follow it, one per title, each marked `✓` for
      exactly the equipments `_equipment_has_prop` accepts. */
  lemma {:induction false} TableRowsAt(data: seq<EquipmentData>, names: seq<string>, titles: map<string, seq<string>>, i: nat, k: nat)
    requires HasLists(names, titles) && i < |names|
    ensures var rows, start, ts := TableRows(data, names, titles), RowCount(names[..i], titles), titles[names[i]];
            && start + 1 + |ts| <= |rows|
            && rows[start] == OptionRow(names[i], |data|)
            && (k < |ts| ==> rows[start + 1 + k] == [ts[k]] + Marks(data, names[i], ts[k]))
  {
    var n := |names| - 1;
    var init := names[..n];
    TableRowsSplit(data, names, titles);
    if i == n {
      assert init == names[..i];
      TableRowsAtLast(data, names[n], titles[names[n]], TableRows(data, init, titles), TableRows(data, names, titles), k);
    } else {
      assert init[..i] == names[..i] && init[i] == names[i];
      TableRowsAt(data, init, titles, i, k);
      KeepsPrefix(TableRows(data, init, titles),
                  [OptionRow(names[n], |data|)] + PropRows(data, names[n], titles[names[n]]),
                  RowCount(init[..i], titles), k, titles[init[i]]);
    }
  }

  /** The last option's block closes the table. */
  lemma TableRowsAtLast(data: seq<EquipmentData>, last: string, ts: seq<string>, prev: seq<Row>, rows: seq<Row>, k: nat)
    requires rows == prev + ([OptionRow(last, |data|)] + PropRows(data, last, ts))
    ensures |prev| + 1 + |ts| <= |rows|
    ensures rows[|prev|] == OptionRow(last, |data|)
    ensures k < |ts| ==> rows[|prev| + 1 + k] == [ts[k]] + Marks(data, last, ts[k])
  {
    BlockAt(prev, OptionRow(last, |data|), PropRows(data, last, ts), k);
    if k < |ts| {
      PropRowsAt(data, last, ts, k);
    }
  }

  /** The block appended last: the option's row, then its property rows. */
  lemma BlockAt(prev: seq<Row>, optRow: Row, props: seq<Row>, k: nat)
    ensures var rows := prev + ([optRow] + props);
            && |rows| == |prev| + 1 + |props|
            && rows[|prev|] == optRow
            && (k < |props| ==> rows[|prev| + 1 + k] == props[k])
  {
  }

  /** Rows before the appended block keep their places. */
  lemma KeepsPrefix(prev: seq<Row>, block: seq<Row>, start: nat, k: nat, ts: seq<string>)
    requires start + 1 + |ts| <= |prev|
    ensures (prev + block)[start] == prev[start]
    ensures k < |ts| ==> (prev + block)[start + 1 + k] == prev[start + 1 + k]
  {
  }

  /** The table is the rows of all options but the last, then the last
      option's block; the earlier rows number `RowCount` of those options. */
  lemma TableRowsSplit(data: seq<EquipmentData>, names: seq<string>, titles: map<string, seq<string>>)
    requires HasLists(names, titles) && names != []
    ensures var n := |names| - 1;
            var prev := TableRows(data, names[..n], titles);
            && TableRows(data, names, titles) ==
                 prev + ([OptionRow(names[n], |data|)] + PropRows(data, names[n], titles[names[n]]))
            && |prev| == RowCount(names[..n], titles)
  {
    TableRowsShape(data, names[..|names| - 1], titles);
  }

  /** The rows of the first options come before the others. */
  lemma {:induction false} RowCountPrefix(names: seq<string>, titles: map<string, seq<string>>, m: nat)
    requires HasLists(names, titles) && m <= |names|
    ensures RowCount(names[..m], titles) <= RowCount(names, titles)
  {
    if m < |names| {
      var n := |names| - 1;
      assert names[..n][..m] == names[..m];
      RowCountPrefix(names[..n], titles, m);
    } else {
      assert names[..m] == names;
    }
  }

  /** The cell of equipment `e` in a property row is `✓` exactly when
      `_equipment_has_prop` holds for it. */
  lemma PropertyCell(data: seq<EquipmentData>, names: seq<string>, titles: map<string, seq<string>>, i: nat, k: nat, e: nat)
    requires HasLists(names, titles) && i < |names| && k < |titles[names[i]]| && e < |data|
    ensures RowCount(names[..i], titles) + 1 + k < |TableRows(data, names, titles)|
    ensures var row := TableRows(data, names, titles)[RowCount(names[..i], titles) + 1 + k];
            && |row| == 1 + |data|
            && row[0] == titles[names[i]][k]
            && (row[e + 1] == CheckMark <==> EquipmentHasProp(data[e], names[i], titles[names[i]][k]))
  {
    TableRowsAt(data, names, titles, i, k);
    MarksAt(data, names[i], titles[names[i]][k], e);
  }

  // ---------------------------------------------------------------------
  // The row_index loop of _build_table

  /** `row_index` before each option: the header is row 0, and each option
      moves it past its own row and its property rows. */
  method SpanRows(names: seq<string>, titles: map<string, seq<string>>) returns (spans: seq<nat>)
    requires HasLists(names, titles)
    ensures |spans| == |names|
    ensures forall i :: 0 <= i < |names| ==> spans[i] == 1 + RowCount(names[..i], titles)
  {
    spans := [];
    var rowIndex := 1;
    for i := 0 to |names|
      invariant |spans| == i && rowIndex == 1 + RowCount(names[..i], titles)
      invariant forall x :: 0 <= x < i ==> spans[x] == 1 + RowCount(names[..x], titles)
    {
      spans := spans + [rowIndex];
      assert names[..i + 1][..i] == names[..i];
      rowIndex := rowIndex + 1 + |titles[names[i]]|;
    }
  }

  /** Every span lands on its option's row of the table, the header row
      included in the count. */
  lemma SpansOnOptionRows(data: seq<EquipmentData>, header: Row, names: seq<string>, titles: map<string, seq<string>>, i: nat)
    requires HasLists(names, titles) && i < |names|
    ensures var table := [header] + TableRows(data, names, titles);
            var span := 1 + RowCount(names[..i], titles);
            span < |table| && table[span] == OptionRow(names[i], |data|)
  {
    TableRowsAt(data, names, titles, i, 0);
  }

  /** The option blocks tile the rows: every row is an option's row or
      one of the property rows after it. */
  lemma {:induction false} RowIndexCases(names: seq<string>, titles: map<string, seq<string>>, r: nat)
    requires HasLists(names, titles) && r < RowCount(names, titles)
    ensures exists i :: 0 <= i < |names| &&
              RowCount(names[..i], titles) <= r <= RowCount(names[..i], titles) + |titles[names[i]]|
  {
    var n := |names| - 1;
    var init := names[..n];
    if r < RowCount(init, titles) {
      RowIndexCases(init, titles, r);
      var i :| 0 <= i < |init| && RowCount(init[..i], titles) <= r <= RowCount(init[..i], titles) + |titles[init[i]]|;
      assert init[..i] == names[..i];
    } else {
      assert RowCount(names[..n], titles) <= r <= RowCount(names[..n], titles) + |titles[names[n]]|;
    }
  }

  // ---------------------------------------------------------------------
  // An option without a name

  /** As written, a property of an option whose name is missing is listed
      under `''`, yet no equipment gets a `✓` for it (unless some option is
      really named `''`), not even the equipment that has it. */
  lemma UnnamedOptionNeverMarked(data: seq<EquipmentData>, e: nat, j: nat, k: nat)
    requires e < |data| && j < |data[e].options| && k < |data[e].options[j].properties|
    requires data[e].options[j].name == None && Truthy(data[e].options[j].properties[k].title)
    requires forall x, y :: 0 <= x < |data| && 0 <= y < |data[x].options| ==> data[x].options[y].name != Some("")
    ensures var r, t := OptionsPropsOf(data), data[e].options[j].properties[k].title.value;
            && "" in r.names && "" in r.titles && t in r.titles[""]
            && forall x :: 0 <= x < |data| ==> !EquipmentHasProp(data[x], "", t)
  {
    var t := data[e].options[j].properties[k].title.value;
    OptionsPropsNames(data, "");
    OptionsPropsTitles(data, "", t);
    forall x | 0 <= x < |data|
      ensures !EquipmentHasProp(data[x], "", t)
    {
      EquipmentHasPropMeans(data[x], "", t);
    }
  }

  /** `_equipment_has_prop` with the name normalised as the aggregation
      does (`(opt.get('name') or '') == opt_name`). */
  function EquipmentHasFiledProp(eq: EquipmentData, optName: string, title: string): bool {
    HasFiledPropIn(eq.options, optName, title)
  }

  function HasFiledPropIn(opts: seq<OptionGroup>, optName: string, title: string): bool {
    if opts == [] then false
    else if OptName(opts[0]) == optName && HasTitle(opts[0].properties, title) then true
    else HasFiledPropIn(opts[1..], optName, title)
  }

  lemma {:induction false} HasFiledPropInMeans(opts: seq<OptionGroup>, optName: string, title: string)
    ensures HasFiledPropIn(opts, optName, title) <==>
            exists j, k :: 0 <= j < |opts| && 0 <= k < |opts[j].properties| &&
                           OptName(opts[j]) == optName && opts[j].properties[k].title == Some(title)
  {
    if opts != [] {
      HasTitleMeans(opts[0].properties, title);
      HasFiledPropInMeans(opts[1..], optName, title);
      assert forall j :: 0 < j < |opts| ==> opts[1..][j - 1] == opts[j];
    }
  }

  /** With the normalised comparison every property row of the table has a
      `✓`: some equipment has that property under that option name. Away
      from `''` the two comparisons agree. */
  lemma FiledPropertyRowsMarked(data: seq<EquipmentData>, n: string, t: string)
    requires n in OptionsPropsOf(data).names && n in OptionsPropsOf(data).titles
    requires t in OptionsPropsOf(data).titles[n]
    ensures exists e :: 0 <= e < |data| && EquipmentHasFiledProp(data[e], n, t)
    ensures n != "" ==> forall e :: 0 <= e < |data| ==> EquipmentHasFiledProp(data[e], n, t) == EquipmentHasProp(data[e], n, t)
  {
    OptionsPropsTitles(data, n, t);
    var e, j, k :| 0 <= e < |data| && 0 <= j < |data[e].options| &&
                   0 <= k < |data[e].options[j].properties| &&
                   OptName(data[e].options[j]) == n &&
                   data[e].options[j].properties[k].title == Some(t);
    HasFiledPropInMeans(data[e].options, n, t);
    if n != "" {
      forall x | 0 <= x < |data|
        ensures EquipmentHasFiledProp(data[x], n, t) == EquipmentHasProp(data[x], n, t)
      {
        HasFiledPropInMeans(data[x].options, n, t);
        EquipmentHasPropMeans(data[x], n, t);
        assert forall y :: 0 <= y < |data[x].options| ==>
                 (OptName(data[x].options[y]) == n <==> data[x].options[y].name == Some(n));
      }
    }
  }
}

=== FILE: pipeline.dfy ===
/** The comparison request end to end: what the page posts
    (`axios.post(SELECTED_API, { ids: finalIds })`) against what the view
    accepts and fetches (`SelectedEquipmentsComparisonPdfView.post`). */
module Pipeline {
  import opened Wrappers
  import opened Sequences
  import opened CompareGrid
  import opened PdfUtils

  /** The JSON body `{ ids: finalIds }`. */
  function RequestBody(ids: seq<int>): map<string, Json> {
    map["ids" := JArray(seq(|ids|, i requires 0 <= i < |ids| => JInt(ids[i])))]
  }

  /** Every request the page sends passes `_validate_ids` unchanged: the
      ids arrive as a non-empty list of integers, in the order sent, at
      most four and none twice. */
  lemma SentIdsAccepted(items: seq<CompareItem>, urlEquipId: Option<int>, keys: seq<string>, requestOk: bool)
    requires CompareOutcome(items, urlEquipId, keys, requestOk).request.Some?
    ensures var ids := CompareOutcome(items, urlEquipId, keys, requestOk).request.value.ids;
            && ValidateIds(RequestBody(ids)) == Success(ids)
            && NoDuplicates(ids) && 0 < |ids| <= 4
  {
    var selected := SelectedItems(ItemsToShow(items, urlEquipId), keys);
    CompareOutcomeCases(items, urlEquipId, keys, requestOk);
    var ids := CompareOutcome(items, urlEquipId, keys, requestOk).request.value.ids;
    FinalIdsSuccess(selected, urlEquipId, ids);
    ValidateIntegerList(RequestBody(ids), ids);
  }

  /** When the page was opened for an equipment that exists, that equipment
      is the first column of the table. */
  lemma PrimaryEquipmentFirst<E>(items: seq<CompareItem>, urlEquipId: Option<int>, keys: seq<string>, requestOk: bool, byId: map<int, E>)
    requires CompareOutcome(items, urlEquipId, keys, requestOk).request.Some?
    requires urlEquipId.Some? && urlEquipId.value in byId
    ensures var ids := CompareOutcome(items, urlEquipId, keys, requestOk).request.value.ids;
            var fetched := OrderedFetch(ids, byId);
            |fetched| > 0 && fetched[0] == byId[urlEquipId.value]
  {
    var selected := SelectedItems(ItemsToShow(items, urlEquipId), keys);
    CompareOutcomeCases(items, urlEquipId, keys, requestOk);
    var ids := CompareOutcome(items, urlEquipId, keys, requestOk).request.value.ids;
    FinalIdsSuccess(selected, urlEquipId, ids);
    OrderedFetchPositions(ids, byId);
    var pos := FoundPositions(ids, byId);
    assert 0 in pos;
  }
}

=== FILE: sequences.dfy ===
/** Sequence vocabulary shared by the front end and the back end: the
    order-preserving de-duplication that both `buildFinalIds` and the
    option aggregation perform, filtering, and flattening. Every recursive
    definition peels off the LAST element, so that a loop that appends at
    the end of a list unfolds it in one step. */
module Sequences {

  /** No element occurs twice. */
  predicate NoDuplicates<T(==)>(s: seq<T>) {
    forall i, j :: 0 <= i < j < |s| ==> s[i] != s[j]
  }

  /** `a` is a prefix of `b`. */
  predicate IsPrefix<T(==)>(a: seq<T>, b: seq<T>) {
    |a| <= |b| && a == b[..|a|]
  }

  /** The position of the first occurrence of `x` in `s`. */
  function IndexOf<T(==)>(s: seq<T>, x: T): (i: nat)
    requires x in s
    ensures i < |s| && s[i] == x && x !in s[..i]
  {
    if s[0] == x then 0
    else
      var j := IndexOf(s[1..], x);
      assert s[..j + 1] == [s[0]] + s[1..][..j];
      1 + j
  }

  /** The elements of `s` in the order they are first seen, each once. */
  function FirstOccurrences<T(==)>(s: seq<T>): (r: seq<T>)
    ensures NoDuplicates(r)
    ensures forall i :: 0 <= i < |r| ==> r[i] in s
    ensures |r| <= |s|
  {
    if s == [] then []
    else
      var init, last := s[..|s| - 1], s[|s| - 1];
      assert s == init + [last];
      if last in init then FirstOccurrences(init) else FirstOccurrences(init) + [last]
  }

  /** De-duplication keeps every element: `x` occurs in the result exactly
      when it occurs in `s`. */
  lemma {:induction false} MemberOfFirstOccurrences<T>(s: seq<T>, x: T)
    ensures x in FirstOccurrences(s) <==> x in s
  {
    if s != [] {
      var init := s[..|s| - 1];
      assert s == init + [s[|s| - 1]];
      MemberOfFirstOccurrences(init, x);
    }
  }

  /** Seeing one more element adds it at the end, unless it was seen before. */
  lemma FirstOccurrencesAppend<T>(s: seq<T>, x: T)
    ensures FirstOccurrences(s + [x]) ==
            if x in s then FirstOccurrences(s) else FirstOccurrences(s) + [x]
  {
    assert (s + [x])[..|s|] == s;
  }

  /** The first occurrences of a sequence that has no duplicates are the sequence itself. */
  lemma {:induction false} FirstOccurrencesOfDistinct<T>(s: seq<T>)
    requires NoDuplicates(s)
    ensures FirstOccurrences(s) == s
  {
    if s != [] {
      var init := s[..|s| - 1];
      FirstOccurrencesOfDistinct(init);
      assert s == init + [s[|s| - 1]];
    }
  }

  lemma IndexOfPrefix<T>(s: seq<T>, k: nat, x: T)
    requires k <= |s| && x in s[..k]
    ensures IndexOf(s[..k], x) == IndexOf(s, x)
  {
    var i, j := IndexOf(s[..k], x), IndexOf(s, x);
    assert s[..k][..i] == s[..i];
  }

  /** De-duplication keeps the order of first appearance. */
  lemma {:induction false} FirstOccurrencesOrder<T>(s: seq<T>)
    ensures forall i, j :: 0 <= i < j < |FirstOccurrences(s)| ==>
              IndexOf(s, FirstOccurrences(s)[i]) < IndexOf(s, FirstOccurrences(s)[j])
  {
    if s != [] {
      var n := |s| - 1;
      var init, last := s[..n], s[n];
      assert s[..n] == init;
      FirstOccurrencesOrder(init);
      var r0, r := FirstOccurrences(init), FirstOccurrences(s);
      forall y | y in r0
        ensures IndexOf(s, y) == IndexOf(init, y) < n
      {
        IndexOfPrefix(s, n, y);
      }
      if last !in init {
        assert r == r0 + [last];
        assert s[..n] == init;
        assert IndexOf(s, last) == n;
      } else {
        assert r == r0;
      }
      forall i, j | 0 <= i < j < |r|
        ensures IndexOf(s, r[i]) < IndexOf(s, r[j])
      {
        assert r[i] in r0;
        if j < |r0| {
          assert r[j] in r0;
          assert IndexOf(init, r0[i]) < IndexOf(init, r0[j]);
        }
      }
    }
  }

  /** De-duplicating a prefix gives a prefix of the de-duplicated whole. */
  lemma {:induction false} FirstOccurrencesPrefix<T>(s: seq<T>, k: nat)
    requires k <= |s|
    ensures IsPrefix(FirstOccurrences(s[..k]), FirstOccurrences(s))
  {
    if k < |s| {
      var n := |s| - 1;
      assert s[..n][..k] == s[..k];
      FirstOccurrencesPrefix(s[..n], k);
      assert s == s[..n] + [s[n]];
      FirstOccurrencesAppend(s[..n], s[n]);
    } else {
      assert s[..k] == s;
    }
  }

  /** What de-duplication keeps, in one place: each element once, `x`
      exactly when `s` has it, in the order first seen. */
  lemma FirstOccurrencesFacts<T>(s: seq<T>, x: T)
    ensures var r := FirstOccurrences(s);
            && NoDuplicates(r)
            && (x in r <==> x in s)
            && forall a, b :: 0 <= a < b < |r| ==> IndexOf(s, r[a]) < IndexOf(s, r[b])
  {
    MemberOfFirstOccurrences(s, x);
    FirstOccurrencesOrder(s);
  }

  /** The first element is always kept, in front. */
  lemma FirstOccurrencesHead<T>(x: T, rest: seq<T>)
    ensures |FirstOccurrences([x] + rest)| > 0 && FirstOccurrences([x] + rest)[0] == x
  {
    var s := [x] + rest;
    assert s[..1] == [x];
    FirstOccurrencesPrefix(s, 1);
    FirstOccurrencesOfDistinct([x]);
  }

  /** The first elements of a list without duplicates have none either. */
  lemma TakeNoDuplicates<T>(s: seq<T>, n: nat)
    requires NoDuplicates(s)
    ensures NoDuplicates(Take(s, n))
  {
  }

  /** The elements of `s` that satisfy `p`, in their order in `s`. */
  function Filter<T>(s: seq<T>, p: T -> bool): (r: seq<T>)
    ensures |r| <= |s|
    ensures forall i :: 0 <= i < |r| ==> r[i] in s && p(r[i])
    ensures forall i :: 0 <= i < |s| && p(s[i]) ==> s[i] in r
  {
    if s == [] then []
    else
      var init, last := s[..|s| - 1], s[|s| - 1];
      assert s == init + [last];
      if p(last) then Filter(init, p) + [last] else Filter(init, p)
  }

  /** Filtering keeps a sequence whose elements all pass. */
  lemma {:induction false} FilterAll<T>(s: seq<T>, p: T -> bool)
    requires forall i :: 0 <= i < |s| ==> p(s[i])
    ensures Filter(s, p) == s
  {
    if s != [] {
      FilterAll(s[..|s| - 1], p);
      assert s == s[..|s| - 1] + [s[|s| - 1]];
    }
  }

  lemma {:induction false} FilterConcat<T>(a: seq<T>, b: seq<T>, p: T -> bool)
    ensures Filter(a + b, p) == Filter(a, p) + Filter(b, p)
  {
    if b != [] {
      var n := |b| - 1;
      FilterConcat(a, b[..n], p);
      assert (a + b)[..|a + b| - 1] == a + b[..n];
    } else {
      assert a + b == a;
    }
  }

  /** The lists of `ss`, concatenated in order. */
  function Flatten<T>(ss: seq<seq<T>>): seq<T> {
    if ss == [] then [] else Flatten(ss[..|ss| - 1]) + ss[|ss| - 1]
  }

  lemma {:induction false} FlattenConcat<T>(a: seq<seq<T>>, b: seq<seq<T>>)
    ensures Flatten(a + b) == Flatten(a) + Flatten(b)
  {
    if b != [] {
      var n := |b| - 1;
      FlattenConcat(a, b[..n]);
      assert (a + b)[..|a + b| - 1] == a + b[..n];
    } else {
      assert a + b == a;
    }
  }

  /** Filtering with two tests that agree on every element gives the same result. */
  lemma {:induction false} FilterSame<T>(s: seq<T>, p: T -> bool, q: T -> bool)
    requires forall i :: 0 <= i < |s| ==> p(s[i]) == q(s[i])
    ensures Filter(s, p) == Filter(s, q)
  {
    if s != [] {
      FilterSame(s[..|s| - 1], p, q);
    }
  }

  /** Filtering drops exactly the elements that fail. */
  lemma {:induction false} FilterNone<T>(s: seq<T>, p: T -> bool)
    requires forall i :: 0 <= i < |s| ==> !p(s[i])
    ensures Filter(s, p) == []
  {
    if s != [] {
      FilterNone(s[..|s| - 1], p);
    }
  }

  /** The first `n` elements of `s`, or all of them when there are fewer. */
  function Take<T>(s: seq<T>, n: nat): (r: seq<T>)
    ensures IsPrefix(r, s)
    ensures |r| == if |s| < n then |s| else n
  {
    if |s| < n then s else s[..n]
  }
}

=== FILE: serializers.dfy ===
/** The two list-building serializer methods of the back end
    (backend/main/serializers.py): the options of a selected equipment,
    grouped by parent option and sorted, and the equipments of a car model,
    collected across its modifications. Query sets are input sequences of
    records in query order. */
module Serializers {
  import opened Wrappers
  import opened Sequences
  import opened Decimal

  /** An `Options` row: `name` may be null. */
  datatype OptionRef = OptionRef(id: int, name: Option<string>)

  /** An `OptionPropertiesModel` row with its parent option, which may be
      missing; `title` may be null. */
  datatype PropertyRecord = PropertyRecord(id: int, title: Option<string>, option: Option<OptionRef>)

  /** `PropertySerializer` output: `{"id", "title"}`. */
  datatype PropertyData = PropertyData(id: int, title: Option<string>)

  /** The grouping key `(tag, id, name)` of `get_options`. */
  datatype GroupKey = GroupKey(tag: string, id: Option<int>, name: Option<string>)

  /** One entry of `get_options`: `{"id", "name", "properties"}`. */
  datatype OptionGroup = OptionGroup(id: Option<int>, name: Option<string>, properties: seq<PropertyData>)

  const NoneTag := "__none__"
  const OtherName := "Other"

  function Data(p: PropertyRecord): PropertyData {
    PropertyData(p.id, p.title)
  }

  /** The key a property is filed under: its parent option, or the
      `Other` bucket when it has none. */
  function PropKey(p: PropertyRecord): GroupKey {
    match p.option
    case None => GroupKey(NoneTag, None, Some(OtherName))
    case Some(o) => GroupKey(IntToString(o.id), Some(o.id), o.name)
  }

  /** Two keys of properties are equal exactly when their ids and names are. */
  lemma PropKeyByIdAndName(p: PropertyRecord, q: PropertyRecord)
    ensures PropKey(p) == PropKey(q) <==> PropKey(p).id == PropKey(q).id && PropKey(p).name == PropKey(q).name
  {
  }

  /** The keys of the properties, in query order. */
  function KeysOf(props: seq<PropertyRecord>): (r: seq<GroupKey>)
    ensures |r| == |props|
  {
    if props == [] then [] else KeysOf(props[..|props| - 1]) + [PropKey(props[|props| - 1])]
  }

  /** The `i`-th key is the key of the `i`-th property. */
  lemma {:induction false} KeysOfAt(props: seq<PropertyRecord>, i: nat)
    requires i < |props|
    ensures KeysOf(props)[i] == PropKey(props[i])
  {
    var n := |props| - 1;
    if i < n {
      KeysOfAt(props[..n], i);
    }
  }

  /** The serialized properties filed under `k`, in query order. */
  function GroupOf(props: seq<PropertyRecord>, k: GroupKey): seq<PropertyData> {
    if props == [] then []
    else
      var last := props[|props| - 1];
      GroupOf(props[..|props| - 1], k) + (if PropKey(last) == k then [Data(last)] else [])
  }

  /** One entry per key, in the order of `keys`. */
  function GroupsFrom(keys: seq<GroupKey>, props: seq<PropertyRecord>): (r: seq<OptionGroup>)
    ensures |r| == |keys|
  {
    if keys == [] then []
    else
      var k := keys[|keys| - 1];
      GroupsFrom(keys[..|keys| - 1], props) + [OptionGroup(k.id, k.name, GroupOf(props, k))]
  }

  /** The entries before sorting: one per distinct key, in the order the
      keys are first met (the insertion order of the `grouped` dict). */
  function GroupedOptions(props: seq<PropertyRecord>): seq<OptionGroup> {
    GroupsFrom(FirstOccurrences(KeysOf(props)), props)
  }

  /** What `get_options` returns. */
  function Options(props: seq<PropertyRecord>): seq<OptionGroup> {
    StableSort(GroupedOptions(props))
  }

  // ---------------------------------------------------------------------
  // The sort key `(x["name"] or "", x["id"] or 0)` and Python's ordering.

  datatype SortKey = SortKey(name: string, id: int)

  function SortKeyOf(g: OptionGroup): SortKey {
    SortKey(g.name.GetOr(""), g.id.GetOr(0))
  }

  /** Python's `<` on strings: code point by code point, a proper prefix first. */
  predicate StrLt(a: string, b: string) {
    if b == [] then false
    else if a == [] then true
    else if a[0] != b[0] then a[0] < b[0]
    else StrLt(a[1..], b[1..])
  }

  /** Python's `<` on the key tuples. */
  predicate KeyLt(a: SortKey, b: SortKey) {
    StrLt(a.name, b.name) || (a.name == b.name && a.id < b.id)
  }

  lemma {:induction false} StrLtIrreflexive(a: string)
    ensures !StrLt(a, a)
  {
    if a != [] {
      StrLtIrreflexive(a[1..]);
    }
  }

  lemma {:induction false} StrLtTransitive(a: string, b: string, c: string)
    requires StrLt(a, b) && StrLt(b, c)
    ensures StrLt(a, c)
  {
    if a != [] && a[0] == b[0] && b[0] == c[0] {
      StrLtTransitive(a[1..], b[1..], c[1..]);
    }
  }

  lemma {:induction false} StrLtTotal(a: string, b: string)
    requires a != b
    ensures StrLt(a, b) || StrLt(b, a)
  {
    if a != [] && b != [] && a[0] == b[0] {
      assert a == [a[0]] + a[1..] && b == [b[0]] + b[1..];
      StrLtTotal(a[1..], b[1..]);
    }
  }

  /** The key order is a strict total order. */
  lemma KeyLtOrder(a: SortKey, b: SortKey, c: SortKey)
    ensures !KeyLt(a, a)
    ensures KeyLt(a, b) && KeyLt(b, c) ==> KeyLt(a, c)
    ensures a != b ==> KeyLt(a, b) || KeyLt(b, a)
  {
    StrLtIrreflexive(a.name);
    if KeyLt(a, b) && KeyLt(b, c) {
      if StrLt(a.name, b.name) && StrLt(b.name, c.name) {
        StrLtTransitive(a.name, b.name, c.name);
      }
    }
    if a != b && a.name != b.name {
      StrLtTotal(a.name, b.name);
    }
  }

  /** Ascending by key: no later entry is smaller than an earlier one. */
  predicate Sorted(s: seq<OptionGroup>) {
    forall i, j :: 0 <= i < j < |s| ==> !KeyLt(SortKeyOf(s[j]), SortKeyOf(s[i]))
  }

  /** Places `x` after every entry it is not smaller than, scanning from
      the end, as a stable insertion does. */
  function Insert(t: seq<OptionGroup>, x: OptionGroup): (r: seq<OptionGroup>)
    ensures |r| == |t| + 1
    ensures multiset(r) == multiset(t) + multiset{x}
  {
    if t == [] then [x]
    else
      var init, last := t[..|t| - 1], t[|t| - 1];
      assert t == init + [last];
      if !KeyLt(SortKeyOf(x), SortKeyOf(last)) then t + [x] else Insert(init, x) + [last]
  }

  /** `list.sort(key=...)`: a stable sort. */
  function StableSort(s: seq<OptionGroup>): (r: seq<OptionGroup>)
    ensures multiset(r) == multiset(s)
  {
    if s == [] then []
    else
      assert s == s[..|s| - 1] + [s[|s| - 1]];
      Insert(StableSort(s[..|s| - 1]), s[|s| - 1])
  }

  /** The entries with key `v`, in order. */
  function WithKey(s: seq<OptionGroup>, v: SortKey): seq<OptionGroup> {
    if s == [] then []
    else WithKey(s[..|s| - 1], v) + (if SortKeyOf(s[|s| - 1]) == v then [s[|s| - 1]] else [])
  }

  lemma {:induction false} InsertSorted(t: seq<OptionGroup>, x: OptionGroup)
    requires Sorted(t)
    ensures Sorted(Insert(t, x))
  {
    if t != [] {
      var init, last := t[..|t| - 1], t[|t| - 1];
      var r := Insert(t, x);
      if !KeyLt(SortKeyOf(x), SortKeyOf(last)) {
        forall i | 0 <= i < |t|
          ensures !KeyLt(SortKeyOf(x), SortKeyOf(t[i]))
        {
          KeyLtOrder(SortKeyOf(x), SortKeyOf(t[i]), SortKeyOf(last));
          KeyLtOrder(SortKeyOf(t[i]), SortKeyOf(last), SortKeyOf(x));
        }
      } else {
        assert Sorted(init);
        InsertSorted(init, x);
        var u := Insert(init, x);
        assert r == u + [last];
        forall i | 0 <= i < |u|
          ensures !KeyLt(SortKeyOf(last), SortKeyOf(u[i]))
        {
          assert u[i] in multiset(u);
          if u[i] == x {
            KeyLtOrder(SortKeyOf(x), SortKeyOf(last), SortKeyOf(x));
          } else {
            assert u[i] in multiset(init);
            var j :| 0 <= j < |init| && init[j] == u[i];
          }
        }
      }
    }
  }

  lemma WithKeyAppend(s: seq<OptionGroup>, y: OptionGroup, v: SortKey)
    ensures WithKey(s + [y], v) == WithKey(s, v) + (if SortKeyOf(y) == v then [y] else [])
  {
    assert (s + [y])[..|s|] == s;
  }

  lemma {:induction false} InsertWithKey(t: seq<OptionGroup>, x: OptionGroup, v: SortKey)
    decreases |t|, 1
    ensures WithKey(Insert(t, x), v) == WithKey(t, v) + (if SortKeyOf(x) == v then [x] else [])
  {
    if t != [] {
      var init, last := t[..|t| - 1], t[|t| - 1];
      assert t == init + [last];
      WithKeyAppend(init, last, v);
      if !KeyLt(SortKeyOf(x), SortKeyOf(last)) {
        WithKeyAppend(t, x, v);
      } else {
        InsertWithKeyAfter(init, x, last, v);
      }
    }
  }

  lemma {:induction false} InsertWithKeyAfter(init: seq<OptionGroup>, x: OptionGroup, last: OptionGroup, v: SortKey)
    requires KeyLt(SortKeyOf(x), SortKeyOf(last))
    ensures WithKey(Insert(init, x) + [last], v) ==
            WithKey(init, v) + (if SortKeyOf(last) == v then [last] else []) + (if SortKeyOf(x) == v then [x] else [])
    decreases |init|, 2
  {
    KeyLtOrder(SortKeyOf(x), SortKeyOf(x), SortKeyOf(x));
    InsertWithKey(init, x, v);
    WithKeyAppend(Insert(init, x), last, v);
  }

  /** The sort orders the entries ascending by `(name or "", id or 0)`. */
  lemma {:induction false} StableSortSorted(s: seq<OptionGroup>)
    ensures Sorted(StableSort(s))
  {
    if s != [] {
      StableSortSorted(s[..|s| - 1]);
      InsertSorted(StableSort(s[..|s| - 1]), s[|s| - 1]);
    }
  }

  /** The sort is stable: entries with equal keys keep their relative order. */
  lemma {:induction false} StableSortStable(s: seq<OptionGroup>, v: SortKey)
    ensures WithKey(StableSort(s), v) == WithKey(s, v)
  {
    if s != [] {
      StableSortStable(s[..|s| - 1], v);
      InsertWithKey(StableSort(s[..|s| - 1]), s[|s| - 1], v);
    }
  }

  // ---------------------------------------------------------------------
  // What the grouping guarantees.

  lemma {:induction false} GroupOfAbsent(props: seq<PropertyRecord>, k: GroupKey)
    requires k !in KeysOf(props)
    ensures GroupOf(props, k) == []
  {
    if props != [] {
      var init := props[..|props| - 1];
      GroupOfAbsent(init, k);
    }
  }

  /** Property ids are distinct, as primary keys of `OptionPropertiesModel` are. */
  predicate DistinctIds(props: seq<PropertyRecord>) {
    forall a, b :: 0 <= a < b < |props| ==> props[a].id != props[b].id
  }

  /** A property is filed under its own key and, its id being its own,
      under no other. */
  lemma GroupOfMember(props: seq<PropertyRecord>, i: nat, k: GroupKey)
    requires i < |props|
    ensures PropKey(props[i]) == k ==> Data(props[i]) in GroupOf(props, k)
    ensures DistinctIds(props) && Data(props[i]) in GroupOf(props, k) ==> PropKey(props[i]) == k
  {
    if PropKey(props[i]) == k {
      GroupOfHas(props, i, k);
    }
    if DistinctIds(props) && Data(props[i]) in GroupOf(props, k) {
      var i2 := GroupOfFrom(props, k, Data(props[i]));
      assert props[i2].id == props[i].id;
      assert i2 == i;
    }
  }

  lemma {:induction false} GroupOfHas(props: seq<PropertyRecord>, i: nat, k: GroupKey)
    requires i < |props| && PropKey(props[i]) == k
    ensures Data(props[i]) in GroupOf(props, k)
  {
    var n := |props| - 1;
    if i < n {
      GroupOfHas(props[..n], i, k);
    }
  }

  /** Whatever a group holds comes from a property filed under its key. */
  lemma {:induction false} GroupOfFrom(props: seq<PropertyRecord>, k: GroupKey, d: PropertyData) returns (i: nat)
    requires d in GroupOf(props, k)
    ensures i < |props| && PropKey(props[i]) == k && Data(props[i]) == d
  {
    var n := |props| - 1;
    if d in GroupOf(props[..n], k) {
      i := GroupOfFrom(props[..n], k, d);
    } else {
      i := n;
    }
  }

  /** Properties keep their query order inside a group: the group of a
      prefix of the query is a prefix of the group. */
  lemma {:induction false} GroupOfPrefix(props: seq<PropertyRecord>, m: nat, k: GroupKey)
    requires m <= |props|
    ensures IsPrefix(GroupOf(props[..m], k), GroupOf(props, k))
  {
    if m < |props| {
      var n := |props| - 1;
      assert props[..n][..m] == props[..m];
      GroupOfPrefix(props[..n], m, k);
    } else {
      assert props[..m] == props;
    }
  }

  lemma {:induction false} GroupsFromAt(keys: seq<GroupKey>, props: seq<PropertyRecord>, j: nat)
    requires j < |keys|
    ensures GroupsFrom(keys, props)[j] == OptionGroup(keys[j].id, keys[j].name, GroupOf(props, keys[j]))
  {
    var n := |keys| - 1;
    if j < n {
      GroupsFromAt(keys[..n], props, j);
    }
  }

  /** One entry per distinct key, none twice: the entries' `(id, name)`
      pairs are exactly the keys met among the properties, each once, and
      every entry carries the properties filed under it. */
  lemma GroupedOptionsEntries(props: seq<PropertyRecord>)
    ensures var g := GroupedOptions(props);
            var keys := FirstOccurrences(KeysOf(props));
            && |g| == |keys|
            && NoDuplicates(keys)
            && (forall i :: 0 <= i < |props| ==> PropKey(props[i]) in keys)
            && (forall j :: 0 <= j < |keys| ==> exists i :: 0 <= i < |props| && PropKey(props[i]) == keys[j])
            && (forall j :: 0 <= j < |g| ==>
                  g[j] == OptionGroup(keys[j].id, keys[j].name, GroupOf(props, keys[j])))
  {
    var keys := FirstOccurrences(KeysOf(props));
    forall i | 0 <= i < |props|
      ensures PropKey(props[i]) in keys
    {
      KeysOfAt(props, i);
      MemberOfFirstOccurrences(KeysOf(props), PropKey(props[i]));
    }
    forall j | 0 <= j < |keys|
      ensures exists i :: 0 <= i < |props| && PropKey(props[i]) == keys[j]
    {
      MemberOfFirstOccurrences(KeysOf(props), keys[j]);
      var i :| 0 <= i < |KeysOf(props)| && KeysOf(props)[i] == keys[j];
      KeysOfAt(props, i);
    }
    forall j | 0 <= j < |keys|
      ensures GroupedOptions(props)[j] == OptionGroup(keys[j].id, keys[j].name, GroupOf(props, keys[j]))
    {
      GroupsFromAt(keys, props, j);
    }
  }

  /** Every property lands in exactly one entry: the one with its parent
      option's id and name, or the `Other` entry with id `None`. */
  lemma PropertyLandsOnce(props: seq<PropertyRecord>, i: nat)
    requires i < |props|
    ensures var g := GroupedOptions(props);
            var p := props[i];
            && (exists j :: 0 <= j < |g| && g[j].id == PropKey(p).id && g[j].name == PropKey(p).name &&
                           Data(p) in g[j].properties)
            && (forall j1, j2 :: 0 <= j1 < j2 < |g| ==> (g[j1].id, g[j1].name) != (g[j2].id, g[j2].name))
            && (p.option.None? ==> PropKey(p).id == None && PropKey(p).name == Some(OtherName))
    ensures var g := GroupedOptions(props);
            var p := props[i];
            DistinctIds(props) ==>
              forall j :: 0 <= j < |g| && Data(p) in g[j].properties ==>
                g[j].id == PropKey(p).id && g[j].name == PropKey(p).name
  {
    GroupedOptionsEntries(props);
    var g := GroupedOptions(props);
    var keys := FirstOccurrences(KeysOf(props));
    var j := IndexOf(keys, PropKey(props[i]));
    GroupOfMember(props, i, PropKey(props[i]));
    assert g[j].id == PropKey(props[i]).id && g[j].name == PropKey(props[i]).name;
    forall j1, j2 | 0 <= j1 < j2 < |g|
      ensures (g[j1].id, g[j1].name) != (g[j2].id, g[j2].name)
    {
      var i1 :| 0 <= i1 < |props| && PropKey(props[i1]) == keys[j1];
      var i2 :| 0 <= i2 < |props| && PropKey(props[i2]) == keys[j2];
      PropKeyByIdAndName(props[i1], props[i2]);
    }
    forall j | 0 <= j < |g| && DistinctIds(props) && Data(props[i]) in g[j].properties
      ensures g[j].id == PropKey(props[i]).id && g[j].name == PropKey(props[i]).name
    {
      GroupOfMember(props, i, keys[j]);
    }
  }

  /** What `get_options` returns is sorted, stable, and holds exactly the
      grouped entries. */
  lemma OptionsSortedStable(props: seq<PropertyRecord>, v: SortKey)
    ensures Sorted(Options(props))
    ensures WithKey(Options(props), v) == WithKey(GroupedOptions(props), v)
    ensures multiset(Options(props)) == multiset(GroupedOptions(props))
  {
    StableSortSorted(GroupedOptions(props));
    StableSortStable(GroupedOptions(props), v);
  }

  // ---------------------------------------------------------------------
  // The serializer methods.

  /** `SelectedEquipmentSerializer.get_options`. */
  method GetOptions(props: seq<PropertyRecord>) returns (result: seq<OptionGroup>)
    ensures result == Options(props)
  {
    var order: seq<GroupKey> := [];
    var grouped: map<GroupKey, seq<PropertyData>> := map[];
    var i := 0;
    while i < |props|
      invariant 0 <= i <= |props|
      invariant Grouping(props[..i], order, grouped)
    {
      var prop := props[i];
      var key := PropKey(prop);
      GroupingStep(props, i, order, grouped);
      if key !in grouped {
        order := order + [key];
        grouped := grouped[key := []];
      }
      grouped := grouped[key := grouped[key] + [Data(prop)]];
      assert Grouping(props[..i + 1], order, grouped);
      i := i + 1;
    }
    assert props[..i] == props;
    result := [];
    var j := 0;
    while j < |order|
      invariant 0 <= j <= |order|
      invariant result == GroupsFrom(order[..j], props)
    {
      var key := order[j];
      GroupingLookup(props, order, grouped, j);
      result := result + [OptionGroup(key.id, key.name, grouped[key])];
      j := j + 1;
    }
    assert order[..j] == order;
    result := StableSort(result);
  }

  /** The state of the grouping loop after the properties `props`: the
      dict's keys in insertion order, and each key's list. */
  ghost predicate Grouping(props: seq<PropertyRecord>, order: seq<GroupKey>, grouped: map<GroupKey, seq<PropertyData>>) {
    && order == FirstOccurrences(KeysOf(props))
    && (forall k :: k in grouped <==> k in order)
    && (forall k :: k in grouped ==> grouped[k] == GroupOf(props, k))
  }

  /** `grouped.setdefault(key, []).append(prop)` keeps the grouping state. */
  lemma GroupingStep(props: seq<PropertyRecord>, i: nat, order: seq<GroupKey>, grouped: map<GroupKey, seq<PropertyData>>)
    requires i < |props| && Grouping(props[..i], order, grouped)
    ensures var key := PropKey(props[i]);
            var order' := if key in grouped then order else order + [key];
            var grouped' := if key in grouped then grouped else grouped[key := []];
            Grouping(props[..i + 1], order', grouped'[key := grouped'[key] + [Data(props[i])]])
  {
    var key := PropKey(props[i]);
    GroupStep(props, i);
    FirstOccurrencesAppend(KeysOf(props[..i]), key);
    MemberOfFirstOccurrences(KeysOf(props[..i]), key);
    if key in grouped {
      GroupingStepKnown(props[..i], props[..i + 1], key, Data(props[i]), order, grouped);
    } else {
      GroupOfAbsent(props[..i], key);
      GroupingStepNew(props[..i], props[..i + 1], key, Data(props[i]), order, grouped);
    }
  }

  /** The step for a key already in the dict: only its list grows. */
  lemma GroupingStepKnown(before: seq<PropertyRecord>, after: seq<PropertyRecord>, key: GroupKey, d: PropertyData,
                          order: seq<GroupKey>, grouped: map<GroupKey, seq<PropertyData>>)
    requires Grouping(before, order, grouped) && key in grouped
    requires FirstOccurrences(KeysOf(after)) == order
    requires forall k :: GroupOf(after, k) == GroupOf(before, k) + (if key == k then [d] else [])
    ensures Grouping(after, order, grouped[key := grouped[key] + [d]])
  {
  }

  /** The step for a new key: it is appended to the keys with a one-item list. */
  lemma GroupingStepNew(before: seq<PropertyRecord>, after: seq<PropertyRecord>, key: GroupKey, d: PropertyData,
                        order: seq<GroupKey>, grouped: map<GroupKey, seq<PropertyData>>)
    requires Grouping(before, order, grouped) && key !in grouped
    requires FirstOccurrences(KeysOf(after)) == order + [key]
    requires GroupOf(before, key) == []
    requires forall k :: GroupOf(after, k) == GroupOf(before, k) + (if key == k then [d] else [])
    ensures Grouping(after, order + [key], grouped[key := []][key := [] + [d]])
  {
  }

  /** One more property: its key is appended to the keys, and its data to
      its own group only. */
  lemma GroupStep(props: seq<PropertyRecord>, i: nat)
    requires i < |props|
    ensures KeysOf(props[..i + 1]) == KeysOf(props[..i]) + [PropKey(props[i])]
    ensures forall k :: GroupOf(props[..i + 1], k) ==
              GroupOf(props[..i], k) + (if PropKey(props[i]) == k then [Data(props[i])] else [])
  {
    assert props[..i + 1][..i] == props[..i];
  }

  /** After the grouping loop, each listed key holds its group. */
  lemma GroupingLookup(props: seq<PropertyRecord>, order: seq<GroupKey>, grouped: map<GroupKey, seq<PropertyData>>, j: nat)
    requires Grouping(props, order, grouped) && j < |order|
    ensures order[j] in grouped && grouped[order[j]] == GroupOf(props, order[j])
    ensures GroupsFrom(order[..j + 1], props) ==
            GroupsFrom(order[..j], props) + [OptionGroup(order[j].id, order[j].name, grouped[order[j]])]
  {
    var key := order[j];
    assert key in order;
    GroupsFromStep(order, props, j);
  }

  lemma GroupsFromStep(keys: seq<GroupKey>, props: seq<PropertyRecord>, j: nat)
    requires j < |keys|
    ensures GroupsFrom(keys[..j + 1], props) ==
            GroupsFrom(keys[..j], props) + [OptionGroup(keys[j].id, keys[j].name, GroupOf(props, keys[j]))]
  {
    assert keys[..j + 1][..j] == keys[..j];
  }

  /** An `EquipmentsModel` row. */
  datatype EquipmentRecord = EquipmentRecord(id: int, name: string, price: int, oldPrice: int)

  /** `EquipmentSimpleSerializer` output: `{"name", "price", "id"}`. */
  datatype EquipmentSimple = EquipmentSimple(name: string, price: int, id: int)

  function Simple(e: EquipmentRecord): EquipmentSimple {
    EquipmentSimple(e.name, e.price, e.id)
  }

  function SimpleAll(eqs: seq<EquipmentRecord>): (r: seq<EquipmentSimple>)
    ensures |r| == |eqs| && forall i :: 0 <= i < |r| ==> r[i] == Simple(eqs[i])
  {
    if eqs == [] then [] else SimpleAll(eqs[..|eqs| - 1]) + [Simple(eqs[|eqs| - 1])]
  }

  /** `CarModelSerializer.get_equipments`: the equipments of every
      modification, modification by modification. */
  method GetEquipments(modifications: seq<seq<EquipmentRecord>>) returns (data: seq<EquipmentSimple>)
    ensures data == SimpleAll(Flatten(modifications))
  {
    var equipments: seq<EquipmentRecord> := [];
    var m := 0;
    while m < |modifications|
      invariant 0 <= m <= |modifications|
      invariant equipments == Flatten(modifications[..m])
    {
      var mod := modifications[m];
      var e := 0;
      while e < |mod|
        invariant 0 <= e <= |mod|
        invariant equipments == Flatten(modifications[..m]) + mod[..e]
      {
        equipments := equipments + [mod[e]];
        e := e + 1;
        assert mod[..e] == mod[..e - 1] + [mod[e - 1]];
      }
      assert mod[..e] == mod;
      assert modifications[..m + 1] == modifications[..m] + [mod];
      m := m + 1;
    }
    assert modifications[..m] == modifications;
    data := SimpleAll(equipments);
  }

  /** The equipments of modification `m` stand together, in their own
      order, after those of every earlier modification. */
  lemma {:induction false} EquipmentsOfModification(modifications: seq<seq<EquipmentRecord>>, m: nat)
    requires m < |modifications|
    ensures Flatten(modifications) ==
            Flatten(modifications[..m]) + modifications[m] + Flatten(modifications[m + 1..])
    ensures |Flatten(modifications)| >= |Flatten(modifications[..m])| + |modifications[m]|
  {
    assert modifications == modifications[..m] + ([modifications[m]] + modifications[m + 1..]);
    FlattenConcat(modifications[..m], [modifications[m]] + modifications[m + 1..]);
    FlattenConcat([modifications[m]], modifications[m + 1..]);
    assert Flatten([modifications[m]]) == modifications[m] by {
      assert [modifications[m]][..0] == [];
    }
  }
}

=== FILE: wrappers.dfy ===
/** Optional values and success-or-error results, standing in for
    `null`/`undefined`/`None` and for the error returns of the system. */
module Wrappers {

  datatype Option<+T> = None | Some(value: T) {
    function GetOr(default: T): T {
      match this
      case Some(v) => v
      case None => default
    }
  }

  datatype Result<+R, +E> = Success(value: R) | Failure(error: E)
}
